=== FILE: README.md ===
# Log visualizer core: log parsing, request correlation and streaming-chunk merge

This project is a Dafny model of the back end of a log visualizer for an LLM proxy. The proxy writes one JSON log record per line. The model covers four parts:

- **Log parsing** (`LogParser`). A log file is split into lines. Blank lines and lines that fail to decode are dropped. The remaining records are grouped by their `reqId` into a map that keeps insertion order.
- **Request reconstruction** (`LogsService`). Each group is folded into one parsed request:
  - the timestamp is the first truthy one;
  - method/url, request body, model, final upstream request and status/response time are last-wins;
  - the received-data chunks are collected, merged into one response, and mapped to a legacy usage block.
- **Chunk merge** (`ResponseAggregator`). Streamed chat-completion chunks are merged into one `chat.completion` object:
  - id, created and model are first-wins;
  - role and finish reason are last-wins;
  - content is concatenated;
  - tool calls are merged by stream index and emitted in ascending index order;
  - usage is last-wins;
  - the result is null when nothing was learned.
  The module also holds the legacy `aggregateChunks` and the SSE text extractor `parseSseChunks`.
- **Session store** (`LogsService`). Uploading a file stores a session. The request list shows one summary per request (payload counts, summarization detection, model and token fields), stably sorted by timestamp. Request details look a request up by id. A session, a `Map` from request id to parsed request, is modelled as the list of its entries in insertion order, which is the order `Map.values()` yields; the store of sessions is a Dafny `map`.

It also models two pure helpers of the browser view (`RequestDetails`): the schema type label and text truncation.

Modules and their files:

| module | file | role |
|---|---|---|
| `Js` | js.dfy | JSON values, JavaScript truthiness, property reads, string conversion, `split('\n')`, `includes`, `trim` |
| `Seqs` | seqs.dfy | reference definitions the folds are proved against (first/last truthy, last present, filter, concatenation) |
| `LogEntries` | log_entry.dfy | the log record and the message/type tags the core tests |
| `ResponseAggregator` | response_aggregator.dfy | `mergeChunksToResponse`, `aggregateChunks`, `parseSseChunks` |
| `ResponseAggregatorLaws` | response_aggregator_laws.dfy | what the merge computes, field by field, and the SSE laws |
| `LogParser` | log_parser.dfy | `parseJsonl`, `groupByRequest` |
| `LogsService` | logs_service.dfy | `parseRequestEntries`, `isSummarizationRequest`, `getRequestList`, `getRequestDetails`, `parseLogFile` |
| `RequestDetails` | request_details.dfy | `getSchemaType`, `truncateText` |

Several things outside the core are parameters:

- `JSON.parse` is `decodeLine` for log lines and `decodeJson` for chunk and SSE payloads. `None` stands for a syntax error.
- `Date.now()` is the parameter `now`. Within one request it is a single reading; `parseLogFile` reads the clock once per reconstructed request, so there `now` is a function from the request id to that request's reading.
- The session id that `uuidv4()` draws is the parameter `sessionId`.
- A thrown `TypeError` is modelled as the `TypeError` case of `Js.Completion`.

## Model

| member | source | states |
|---|---|---|
| ResponseAggregator.ParseChunk | src/logs/utils/response-aggregator.util.ts:63-69 | a chunk with neither a truthy `data` nor a truthy `response` yields no payload and is skipped |
| ResponseAggregator.UntilNull | src/logs/utils/response-aggregator.util.ts:98-99 | the tool-call elements processed are exactly those before the first null element, whose `index` read throws |
| ResponseAggregator.MergeToolCallDelta | src/logs/utils/response-aggregator.util.ts:99-113 | after one tool-call delta the map's keys are the old keys plus the delta's index (`index ?? 0`) |
| ResponseAggregator.MinKey | src/logs/utils/response-aggregator.util.ts:166-167 | the chosen key is in the set and no key is smaller |
| ResponseAggregator.SortedKeysMembers | src/logs/utils/response-aggregator.util.ts:166-167 | the sorted key list has one entry per map key and holds exactly the map's keys |
| ResponseAggregator.SortedKeysIncreasing | src/logs/utils/response-aggregator.util.ts:166-167 | the sorted key list is strictly increasing |
| ResponseAggregator.ToolCallsByIndex | src/logs/utils/response-aggregator.util.ts:163-169 | the emitted tool calls are the map's values, one per key, at the position of their key in ascending order |
| ResponseAggregator.Finalize | src/logs/utils/response-aggregator.util.ts:172-189 | a built response has object `chat.completion` and a single choice with index 0 |
| ResponseAggregator.MergeChunksToResponse | src/logs/utils/response-aggregator.util.ts:43-45 | an empty chunk list gives null |
| ResponseAggregatorLaws.AbsorbEffect | src/logs/utils/response-aggregator.util.ts:71-151 | one chunk: id/created/model fill only when still empty, role and finish reason are replaced by a truthy delta value, content is appended, usage is replaced by a truthy usage, tool-call deltas are merged into the map |
| ResponseAggregatorLaws.AbsorbAllHeader | src/logs/utils/response-aggregator.util.ts:71-80 | after all chunks, id, created and model are the first truthy values in chunk order |
| ResponseAggregatorLaws.AbsorbAllMessage | src/logs/utils/response-aggregator.util.ts:86-94 | the role is the last truthy delta role (default `assistant`); the content is the in-order concatenation of all delta contents |
| ResponseAggregatorLaws.AbsorbAllFinishUsage | src/logs/utils/response-aggregator.util.ts:133-151 | the finish reason is the last truthy one (else null); the usage is the last truthy usage block |
| ResponseAggregatorLaws.AbsorbAllToolCalls | src/logs/utils/response-aggregator.util.ts:96-131 | the tool-call map is the merge of all tool-call deltas of all chunks, in stream order |
| ResponseAggregatorLaws.AbsorbAllIsExpected | src/logs/utils/response-aggregator.util.ts:59-156 | the whole fold equals the field-by-field reference builder |
| ResponseAggregatorLaws.ExpectedToolCallEmpty | src/logs/utils/response-aggregator.util.ts:102-111 | a fresh tool call has no id, type or name and empty arguments |
| ResponseAggregatorLaws.ExpectedToolCallStep | src/logs/utils/response-aggregator.util.ts:115-129 | merging one delta into the reference tool call of a delta list gives the reference tool call of the extended list |
| ResponseAggregatorLaws.MergeToolCallDeltasAppend | src/logs/utils/response-aggregator.util.ts:97-131 | merging two delta lists in turn equals merging their concatenation |
| ResponseAggregatorLaws.IndicesMeaning | src/logs/utils/response-aggregator.util.ts:99-111 | an index is a map key exactly when some delta carries that index |
| ResponseAggregatorLaws.SelectIsEmpty | src/logs/utils/response-aggregator.util.ts:99-111 | no delta belongs to index `k` exactly when `k` is not a stream index |
| ResponseAggregatorLaws.ToolCallKeys | src/logs/utils/response-aggregator.util.ts:102-111 | the tool-call map's keys are the set of indices that occur in the stream |
| ResponseAggregatorLaws.ToolCallMapLaw | src/logs/utils/response-aggregator.util.ts:98-129 | the map's keys are the stream indices, and each key's tool call is built from that index's deltas alone: id, type and name are the last truthy values, arguments their in-order concatenation |
| ResponseAggregatorLaws.InterleavingIrrelevant | src/logs/utils/response-aggregator.util.ts:98-129 | two streams with the same per-index delta subsequence build the same tool call for that index, however deltas of other indices interleave |
| ResponseAggregatorLaws.ParsedChunksAppend | src/logs/utils/response-aggregator.util.ts:59-69 | the payloads of a concatenation are the concatenated payloads |
| ResponseAggregatorLaws.SkippedChunkIsIgnored | src/logs/utils/response-aggregator.util.ts:63-69 | inserting a chunk without truthy data/response, or whose string data fails to parse, anywhere in the list leaves the result unchanged |
| ResponseAggregatorLaws.NullIffNothingLearned | src/logs/utils/response-aggregator.util.ts:158-161 | the result is null exactly when no payload has a truthy id, no delta content is truthy and no tool-call delta occurs |
| ResponseAggregatorLaws.FinalizeIsNull | src/logs/utils/response-aggregator.util.ts:158-161 | the builder yields null exactly when id and content are empty and the tool-call map is empty |
| ResponseAggregatorLaws.NothingLearned | src/logs/utils/response-aggregator.util.ts:158-161 | after the fold the builder is blank exactly when no chunk contributed an id, content or tool-call delta |
| ResponseAggregatorLaws.NoIdIffNoIds | src/logs/utils/response-aggregator.util.ts:72-74 | the id stays empty exactly when no chunk has a truthy id |
| ResponseAggregatorLaws.NoContentIffNoDeltas | src/logs/utils/response-aggregator.util.ts:92-94 | the content stays empty exactly when every delta content is empty |
| ResponseAggregatorLaws.NoToolCallsIffNoDeltas | src/logs/utils/response-aggregator.util.ts:97-111 | the tool-call map stays empty exactly when no chunk carries a tool-call delta |
| ResponseAggregatorLaws.ContentLaw | src/logs/utils/response-aggregator.util.ts:195-198 | the merged content is the concatenation of all delta contents (null when empty); a non-empty concatenation forces a result; `aggregateChunks` returns that concatenation |
| ResponseAggregatorLaws.HeaderLaw | src/logs/utils/response-aggregator.util.ts:172-176 | id, created and model are the first truthy chunk values, else `unknown`, `now` and `unknown` |
| ResponseAggregatorLaws.RoleFinishUsageLaw | src/logs/utils/response-aggregator.util.ts:177-188 | one choice with index 0 whose role is the last truthy role, finish reason the last truthy finish reason, and usage the last truthy usage |
| ResponseAggregatorLaws.UsageShape | src/logs/utils/response-aggregator.util.ts:140-150 | token counts default to 0; the cached-token details exist exactly when the chunk has truthy details |
| ResponseAggregatorLaws.ToolCallsLaw | src/logs/utils/response-aggregator.util.ts:163-183 | `tool_calls` is present exactly when some delta occurred, and lists one merged call per stream index in ascending index order |
| ResponseAggregatorLaws.FinalizeEmits | src/logs/utils/response-aggregator.util.ts:163-183 | a builder holding the merge of a delta list emits that list's tool calls per index in ascending order |
| ResponseAggregatorLaws.FinalizeToolCalls | src/logs/utils/response-aggregator.util.ts:163-169 | the emitted calls are the map's values in ascending key order; the key is omitted when the map is empty |
| ResponseAggregatorLaws.SseEntryMeaning | src/logs/utils/response-aggregator.util.ts:207-208 | an entry throws exactly when it is a `send data` entry with truthy non-string data; otherwise it adds its text |
| ResponseAggregatorLaws.ParseSseChunksSnoc | src/logs/utils/response-aggregator.util.ts:206-226 | one more entry appends its text, or propagates a throw |
| ResponseAggregatorLaws.ParseSseChunksMeaning | src/logs/utils/response-aggregator.util.ts:203-229 | the call throws exactly when some `send data` entry has truthy non-string data; otherwise it returns every entry's text in order |
| ResponseAggregatorLaws.ParseSseChunksAppend | src/logs/utils/response-aggregator.util.ts:203-229 | the result for a concatenation is the two parts' results sequenced |
| ResponseAggregatorLaws.ArrayLikeChoices | src/logs/utils/response-aggregator.util.ts:83-84 | an object `choices` with a positive `length` is read at its key "0"; without that key the chunk has a null choice and contributes no usage; a zero `length` gives no choice |
| ResponseAggregatorLaws.NonDataLineIsIgnored | src/logs/utils/response-aggregator.util.ts:211 | a line that does not start with `data: ` contributes nothing |
| ResponseAggregatorLaws.ContentBlockDeltaLine | src/logs/utils/response-aggregator.util.ts:211-219 | a `data: ` line holding any `content_block_delta` event with a non-null `delta` contributes that delta's `text` (nothing when it is falsy), whatever other properties the event has |
| ResponseAggregatorLaws.TextDeltaEventLine | src/logs/utils/response-aggregator.util.ts:211-219 | a full Anthropic text-delta event, with `index` and a typed `delta`, contributes exactly its text |
| Js.SplitLines | src/logs/utils/log-parser.util.ts:8 | splitting yields at least one piece and no piece holds a newline |
| Js.JoinSplitLines | src/logs/utils/log-parser.util.ts:8 | joining the pieces with newlines gives back the text |
| Js.SplitJoinLines | src/logs/utils/log-parser.util.ts:8 | splitting newline-free pieces joined with newlines gives back the pieces |
| LogParser.ParseLines | src/logs/utils/log-parser.util.ts:8-21 | no more records than lines |
| LogParser.ParseLinesAppend | src/logs/utils/log-parser.util.ts:11-19 | the records of concatenated lines are the concatenated records |
| LogParser.DroppedLineIsIgnored | src/logs/utils/log-parser.util.ts:8-18 | inserting a blank or undecodable line anywhere leaves the records unchanged |
| LogParser.MalformedLineIsIgnored | src/logs/utils/log-parser.util.ts:7-22 | the same, stated on the file text |
| LogParser.ParseLinesMeaning | src/logs/utils/log-parser.util.ts:8-21 | every record decodes from a kept line, and every kept line's record is present |
| LogParser.BlankLinesProduceNothing | src/logs/utils/log-parser.util.ts:8 | whitespace-only lines produce no records |
| LogParser.GroupByRequest | src/logs/utils/log-parser.util.ts:27-40 | keys are distinct and non-empty, each group is non-empty, and every member carries its group's id |
| LogParser.AddEntryValid | src/logs/utils/log-parser.util.ts:31-36 | adding one record keeps those invariants |
| LogParser.GroupByRequestLaw | src/logs/utils/log-parser.util.ts:27-40 | each group is exactly the records with that id in input order; an id is a key exactly when it is non-empty and occurs |
| LogParser.UncorrelatedAreDropped | src/logs/utils/log-parser.util.ts:31 | a record without a truthy `reqId` is in no group |
| LogParser.GroupOrderIsFirstSeen | src/logs/utils/log-parser.util.ts:32-34 | the keys come in the order of their first occurrence |
| LogParser.GroupSizesAddUp | src/logs/utils/log-parser.util.ts:30-37 | the group sizes add up to the number of records with a truthy `reqId` |
| LogParser.GroupValuesMeaning | src/logs/utils/log-parser.util.ts:30-31 | grouping throws exactly when some line decoded to `null`; otherwise it groups the object records and skips other values |
| LogsService.ParseRequestEntries | src/logs/logs.service.ts:151-237 | the response content is what `aggregateChunks` returns for the collected chunks; legacy usage exists exactly when the merged response has usage |
| LogsService.LegacyUsageOf | src/logs/logs.service.ts:210-219 | input/output/total tokens are the merged prompt/completion/total tokens; cached tokens are the details' count, else 0 |
| LogsService.ObserveEffect | src/logs/logs.service.ts:164-202 | one record: timestamp fills only while 0; every other field changes only under its own test |
| LogsService.TimestampLaw | src/logs/logs.service.ts:166-168 | the timestamp is the first truthy `time` in group order, else 0 |
| LogsService.IncomingLaw | src/logs/logs.service.ts:171-174 | method and url come from the last `incoming request` record with `req`, else `POST` and `/v1/messages` |
| LogsService.RequestBodyLaw | src/logs/logs.service.ts:177-180 | the request body is the last truthy request-body `data`; the model is the last truthy `data.model`, else `unknown` |
| LogsService.FinalRequestLaw | src/logs/logs.service.ts:183-190 | the final request and headers come from the last `final request` record; headers default to an empty map |
| LogsService.OutcomeLaw | src/logs/logs.service.ts:198-201 | status and response time come from the last `request completed` record, with fallbacks 200 and 0 |
| LogsService.ChunksLaw | src/logs/logs.service.ts:193-195 | the response chunks are exactly the received-data records, in order |
| LogsService.ParseRequestEntriesLaw | src/logs/logs.service.ts:151-237 | every parsed field against its reference definition; the merged response is the merge of the received-data records |
| LogsService.InertEntriesKeepInitial | src/logs/logs.service.ts:164-202 | records on which none of the loop's tests fire leave every local variable at its initial value |
| LogsService.DefaultsLaw | src/logs/logs.service.ts:152-162 | with no matching records and no truthy time, every field keeps its initial value and there is no response |
| LogsService.AnyMentionsMeaning | src/logs/logs.service.ts:127-133 | the array check holds exactly when some element mentions a marker |
| LogsService.SummarizationIff | src/logs/logs.service.ts:101-136 | summarization exactly when there is no non-empty `tools` array and `system` mentions a marker: as a string, or in an array element that is a string or has a string `text` |
| LogsService.ToolsVeto | src/logs/logs.service.ts:103-106 | a non-empty `tools` array rules summarization out |
| LogsService.FalsySystemVeto | src/logs/logs.service.ts:113-117 | a falsy or missing `system` rules summarization out |
| LogsService.MarkerAtStart | src/logs/logs.service.ts:119-121 | a text that starts with a marker contains it |
| LogsService.SummarizationExample | src/logs/logs.service.ts:109-132 | a system block with the summarize marker is detected, and adding a tool suppresses it |
| LogsService.SystemCount | src/logs/logs.service.ts:50-54 | the count is 0 exactly when `system` is falsy or an empty array |
| LogsService.ResponseModel | src/logs/logs.service.ts:67 | the merged response's model when there is a merged response with a non-empty model, and null otherwise |
| LogsService.Summarize | src/logs/logs.service.ts:47-96 | the summary copies id, method, url, status code, response time and timestamp; the request model is the body's model or `unknown`; the response model is the merged response's non-empty model or null; the displayed model is the response model when there is one and the request model otherwise |
| LogsService.SummaryCounts | src/logs/logs.service.ts:49-58 | system, message and tool counts are array lengths; a truthy non-array `system` counts as one; anything else counts 0 |
| LogsService.SummaryFlags | src/logs/logs.service.ts:63-77 | `hasThinking` is the truthiness of `thinking`; a non-empty `tools` array is never flagged as summarization |
| LogsService.SummaryTokens | src/logs/logs.service.ts:72-74 | token counts are the legacy usage's input/output tokens when present, else the merged usage's prompt/completion tokens, else null; input and output are null together |
| LogsService.SummaryOfParsed | src/logs/logs.service.ts:66-74 | for a reconstructed request: the model is the merged model if there is a merged response, else the last truthy body model (or `unknown`); the tokens are the merged prompt/completion tokens, null without usage |
| LogsService.Insert | src/logs/logs.service.ts:98 | insertion adds exactly one element and only the inserted one |
| LogsService.InsertSorted | src/logs/logs.service.ts:98 | inserting into a sorted list keeps it sorted |
| LogsService.InsertAtTime | src/logs/logs.service.ts:98 | insertion places the element after all elements with its timestamp |
| LogsService.SortByTimestamp | src/logs/logs.service.ts:98 | sorting keeps the length |
| LogsService.SortByTimestampLaw | src/logs/logs.service.ts:98 | the result is ordered by timestamp and, per timestamp, holds the same summaries in the same order: a stable permutation |
| LogsService.FindMeaning | src/logs/logs.service.ts:148 | the lookup misses exactly when no stored id matches, and otherwise returns that id's record |
| LogsService.GetRequestDetails | src/logs/logs.service.ts:138-149 | an unknown session gives null |
| LogsService.GetRequestDetailsLaw | src/logs/logs.service.ts:142-148 | in a known session, the details are null exactly for an id that is not stored, and otherwise the record stored under it |
| LogsService.Summaries | src/logs/logs.service.ts:46-97 | one summary per stored request, in insertion order |
| LogsService.GetRequestList | src/logs/logs.service.ts:39-99 | an unknown session gives an empty list; otherwise one summary per stored request |
| LogsService.GetRequestListLaw | src/logs/logs.service.ts:46-98 | the list is sorted by timestamp and keeps insertion order among equal timestamps |
| LogsService.BuildSession | src/logs/logs.service.ts:27-32 | one stored request per group, in group order |
| LogsService.BuildSessionFind | src/logs/logs.service.ts:29-32 | the session stores, under each group key, the reconstruction of that group with that request's own clock reading, and nothing under other ids |
| LogsService.ParseLogFile | src/logs/logs.service.ts:16-37 | on success the new session is added and every other session is unchanged |
| LogsService.ParseLogFileLookup | src/logs/logs.service.ts:21-34 | after upload, a request id's details are the reconstruction of exactly the records with that id; ids no record carries give null |
| LogsService.ParseLogFileListSize | src/logs/logs.service.ts:24-34 | after upload the list has one summary per distinct truthy `reqId` |
| LogsService.ParseLogFileFails | src/logs/logs.service.ts:21-24 | the upload fails exactly when some line decodes to `null` |
| RequestDetails.GetSchemaType | src/public/js/request-details.js:424-444 | a falsy schema is `any`; the label is a string unless it is the schema's own truthy `type` |
| RequestDetails.ArrayLabelStep | src/public/js/request-details.js:428-431 | an array with truthy items is labelled by the item label followed by `[]` |
| RequestDetails.ArraySchemaLabel | src/public/js/request-details.js:427-432 | an array nested `n` deep around a named type is labelled with the type name and `n` suffixes `[]` |
| RequestDetails.DeclaredTypeWins | src/public/js/request-details.js:427-432 | a truthy `type` is the label, as it is, unless it is `array` with truthy `items` (so `array` without items is labelled `array`) |
| RequestDetails.UntypedSchemaLabel | src/public/js/request-details.js:434-443 | without a truthy `type`, `enum` wins over `oneOf`/`anyOf`, else `any` |
| RequestDetails.TruncateText | src/public/js/request-details.js:625-630 | empty or short text is unchanged; longer text becomes the clamped prefix length plus three |
| RequestDetails.TruncateTextBounds | src/public/js/request-details.js:625-630 | the result starts with the text's first `maxLength` characters; when changed, exactly `...` follows that prefix and the result is longer than the limit by at most three |
| RequestDetails.TruncateTextIdempotent | src/public/js/request-details.js:625-630 | truncating twice with the same limit equals truncating once |

## Left out

- I/O and framework: reading the uploaded buffer, `uuidv4`, `console.warn`, the HTTP controller, the DOM rendering of the browser views and the in-memory `Map` object identity.
- `JSON.parse` is a parameter: the model does not decode JSON text, and a log line that decodes to a non-object, non-null value is represented as `OtherValue`.
- Floating-point numbers: JSON numbers are integers, and `responseTime` is a real without rounding.
- ResponseAggregator.ParseChunk: a truthy `id`, `model`, `role`, tool-call `id`/`type`/`name` or `finish_reason` that is not a JSON string is treated as absent, where the source would copy the non-string value. Likewise a `created` or a usage count (`prompt_tokens`, `completion_tokens`, `total_tokens`, `cached_tokens`) that is not a JSON number is treated as absent, so a string `created` falls back to `now` and a string count to 0, where the source copies the value. A `choices` whose `length` is truthy but not a JSON number (a numeric string, say) is treated as having no choice, where the source coerces it in `length > 0`.
- ResponseAggregator.MergeToolCallDelta: a tool-call `index` that is present but not an integer is treated as absent (key 0). The source would use that value as a `Map` key.
- LogsService.ParseRequestEntries: a truthy `data.model` that is not a string is treated as absent. A `reqId` that is not a string is not modelled.
- LogsService.ParseRequestEntries: the `headers` object is a map, so header order is not kept.
- LogsService.ParseRequestEntries: `req.method`, `req.url` and `request.body` are strings in every log line that carries `req` or `request`; an incoming-request line whose `req` lacks them, which the source copies as undefined, is not modelled.
- A log record's `time` and `msg` are total fields; a missing value behaves as 0 and "".
- RequestDetails.TruncateText: the text is a string; a null or undefined text, which the source returns unchanged through its falsy-text guard (for example the undefined `JSON.stringify` of a missing `block.content`), is not modelled.
- RequestDetails.TruncateText: lengths and the cut count Unicode scalar values, not UTF-16 code units as `length` and `substring` do, so text outside the Basic Multilingual Plane is measured and cut at a different place, and a surrogate pair is never split.

=== FILE: js.dfy ===
/** JavaScript values as JSON.parse produces them, and the JavaScript
    coercions the log processor relies on: truthiness, property lookup,
    string conversion, substring search and whitespace trimming. */
module Js {

  /** An optional value: `None` stands for JavaScript's `undefined`/`null`. */
  datatype Option<+T> = None | Some(value: T) {
    /** The wrapped value, or `default` when absent. */
    function GetOr(default: T): T {
      match this
      case Some(v) => v
      case None => default
    }
  }

  /** The result of an evaluation that may raise a JavaScript TypeError. */
  datatype Completion<+T> = Normal(value: T) | TypeError

  /** One `key: value` member of a JSON object, in source order. */
  datatype Field = Field(key: string, value: Json)

  /** A JSON value. Numbers are integers (see README). */
  datatype Json =
    | JNull
    | JBool(b: bool)
    | JNum(n: int)
    | JStr(s: string)
    | JArr(items: seq<Json>)
    | JObj(fields: seq<Field>)

  /** JavaScript truthiness: `null`, `false`, `0` and `""` are falsy. */
  predicate Truthy(j: Json) {
    match j
    case JNull => false
    case JBool(b) => b
    case JNum(n) => n != 0
    case JStr(s) => s != ""
    case _ => true
  }

  /** Truthiness of a property read that may yield `undefined`. */
  predicate Present(o: Option<Json>) {
    o.Some? && Truthy(o.value)
  }

  /** `o || ''` for an optional string. */
  function Text(o: Option<string>): (r: string)
    ensures r == "" <==> (o.None? || o.value == "")
  {
    o.GetOr("")
  }

  /** `o || 0` for an optional number. */
  function Num(o: Option<int>): (r: int)
    ensures r == 0 <==> (o.None? || o.value == 0)
  {
    o.GetOr(0)
  }

  /** Position of the binding of `key` that JSON.parse keeps (the last one), or -1. */
  function FieldIndex(fields: seq<Field>, key: string): (i: int)
    ensures -1 <= i < |fields|
    ensures i == -1 <==> forall j :: 0 <= j < |fields| ==> fields[j].key != key
    ensures i >= 0 ==> fields[i].key == key && forall j :: i < j < |fields| ==> fields[j].key != key
  {
    if |fields| == 0 then -1
    else if fields[|fields| - 1].key == key then |fields| - 1
    else FieldIndex(fields[..|fields| - 1], key)
  }

  /** Property read `j[key]`: only objects have own data properties here;
      on any other non-null value the read yields `undefined`. */
  function Get(j: Json, key: string): (r: Option<Json>)
    ensures r.Some? ==> j.JObj? && exists i :: 0 <= i < |j.fields| && j.fields[i] == Field(key, r.value)
    ensures j.JObj? && (exists i :: 0 <= i < |j.fields| && j.fields[i].key == key) ==> r.Some?
  {
    match j
    case JObj(fields) =>
      var i := FieldIndex(fields, key);
      if i < 0 then None else Some(fields[i].value)
    case _ => None
  }

  /** A property read that is used only when it holds a JSON string. */
  function GetStr(j: Json, key: string): (r: Option<string>)
    ensures r.Some? <==> (Get(j, key).Some? && Get(j, key).value.JStr?)
  {
    match Get(j, key)
    case Some(JStr(s)) => Some(s)
    case _ => None
  }

  /** A property read that is used only when it holds a JSON number. */
  function GetNum(j: Json, key: string): (r: Option<int>)
    ensures r.Some? <==> (Get(j, key).Some? && Get(j, key).value.JNum?)
  {
    match Get(j, key)
    case Some(JNum(n)) => Some(n)
    case _ => None
  }

  /** The decimal digits of a natural number, as `String(n)` writes them. */
  function Digits(n: nat): (r: string)
    ensures |r| >= 1
    ensures forall i :: 0 <= i < |r| ==> '0' <= r[i] <= '9'
    decreases n
  {
    var d := [(('0' as int) + n % 10) as char];
    if n < 10 then d else Digits(n / 10) + d
  }

  /** `String(n)` for an integer. */
  function DecimalString(n: int): string {
    if n < 0 then "-" + Digits(-n) else Digits(n)
  }

  /** `arr.join(',')` of already converted element strings. */
  function JoinComma(parts: seq<string>): string {
    if |parts| == 0 then ""
    else if |parts| == 1 then parts[0]
    else parts[0] + "," + JoinComma(parts[1..])
  }

  /** String conversion `String(j)` / template interpolation `${j}`:
      array elements that are null convert to the empty string in `join`. */
  function JsString(j: Json): string
    decreases j
  {
    match j
    case JNull => "null"
    case JBool(b) => if b then "true" else "false"
    case JNum(n) => DecimalString(n)
    case JStr(s) => s
    case JArr(items) =>
      JoinComma(seq(|items|, i requires 0 <= i < |items| =>
                      if items[i].JNull? then "" else JsString(items[i])))
    case JObj(_) => "[object Object]"
  }

  /** `buffer += x` applied only when `x` is truthy: the text appended. */
  function Appended(o: Option<Json>): string {
    if Present(o) then JsString(o.value) else ""
  }

  /** `pattern` occurs in `text` starting at position `i`. */
  predicate OccursAt(text: string, pattern: string, i: int) {
    0 <= i <= |text| - |pattern| && text[i..i + |pattern|] == pattern
  }

  /** `text.includes(pattern)`. */
  predicate Contains(text: string, pattern: string) {
    exists i | 0 <= i <= |text| - |pattern| :: OccursAt(text, pattern, i)
  }

  /** The characters `String.prototype.trim` removes: ECMAScript WhiteSpace
      (including every Unicode space separator) and LineTerminator. */
  predicate IsWhiteSpace(c: char) {
    || c == '\t' || c == '\n' || c == '\U{000B}' || c == '\U{000C}' || c == '\r'
    || c == ' ' || c == '\U{00A0}' || c == '\U{1680}'
    || ('\U{2000}' <= c <= '\U{200A}')
    || c == '\U{2028}' || c == '\U{2029}' || c == '\U{202F}' || c == '\U{205F}'
    || c == '\U{3000}' || c == '\U{FEFF}'
  }

  /** `line.trim()` is falsy, i.e. the line is empty or whitespace only. */
  predicate IsBlank(line: string) {
    forall i :: 0 <= i < |line| ==> IsWhiteSpace(line[i])
  }

  /** `s.split('\n')`, which always yields at least one piece. */
  function SplitLines(s: string): (r: seq<string>)
    ensures |r| >= 1
    ensures forall i :: 0 <= i < |r| ==> '\n' !in r[i]
    decreases |s|
  {
    if '\n' !in s then [s]
    else
      var i := NewlineIndex(s);
      [s[..i]] + SplitLines(s[i + 1..])
  }

  /** Position of the first newline. */
  function NewlineIndex(s: string): (i: nat)
    requires '\n' in s
    ensures i < |s| && s[i] == '\n' && '\n' !in s[..i]
  {
    if s[0] == '\n' then 0
    else
      assert '\n' in s[1..] by { var j :| 0 <= j < |s| && s[j] == '\n'; assert s[1..][j - 1] == '\n'; }
      var k := NewlineIndex(s[1..]);
      assert s[..k + 1] == [s[0]] + s[1..][..k];
      k + 1
  }

  /** `pieces.join('\n')`. */
  function JoinLines(pieces: seq<string>): string
    requires |pieces| >= 1
  {
    if |pieces| == 1 then pieces[0] else pieces[0] + "\n" + JoinLines(pieces[1..])
  }

  /** Splitting loses nothing: joining the pieces gives the text back. */
  lemma {:induction false} JoinSplitLines(s: string)
    ensures JoinLines(SplitLines(s)) == s
    decreases |s|
  {
    if '\n' in s {
      var i := NewlineIndex(s);
      JoinSplitLines(s[i + 1..]);
      assert s == s[..i] + "\n" + s[i + 1..];
    }
  }

  /** Joining newline-free pieces and splitting again gives the pieces back. */
  lemma {:induction false} SplitJoinLines(pieces: seq<string>)
    requires |pieces| >= 1
    requires forall i :: 0 <= i < |pieces| ==> '\n' !in pieces[i]
    ensures SplitLines(JoinLines(pieces)) == pieces
    decreases |pieces|
  {
    if |pieces| > 1 {
      var p := pieces[0];
      var rest := JoinLines(pieces[1..]);
      var s := p + "\n" + rest;
      assert s[|p|] == '\n';
      var i := NewlineIndex(s);
      assert s[..i] == p;
      assert s[i + 1..] == rest;
      SplitJoinLines(pieces[1..]);
      assert pieces == [p] + pieces[1..];
    }
  }
}

=== FILE: log_entry.dfy ===
/** One decoded line of the proxy's structured log. */
module LogEntries {
  import opened Js

  /** The `req` descriptor of an incoming-request line. */
  datatype Req = Req(httpMethod: string, url: string, host: string, remoteAddress: string, remotePort: int)

  /** The `request` descriptor of a final-request line (the upstream call). */
  datatype UpstreamRequest = UpstreamRequest(httpMethod: string, headers: map<string, string>, body: string)

  /** The `res` descriptor of a request-completed line. */
  datatype Res = Res(statusCode: int)

  /** A log line. `time` and `msg` are always written by the logger; every
      other property is optional. The property `type` is called `kind` here
      and `method` is called `httpMethod` (both are Dafny keywords). */
  datatype LogEntry = LogEntry(
    level: int,
    time: int,
    pid: int,
    hostname: string,
    reqId: Option<string>,
    msg: string,
    req: Option<Req>,
    data: Option<Json>,
    kind: Option<string>,
    request: Option<UpstreamRequest>,
    headers: Option<map<string, string>>,
    requestUrl: Option<string>,
    response: Option<Json>,
    res: Option<Res>,
    responseTime: Option<real>)

  /** The fixed `msg` and `type` tags the reconstruction recognises. The
      spelling "recieved" is the logger's. */
  const IncomingRequest := "incoming request"
  const FinalRequestMsg := "final request"
  const RequestCompleted := "request completed"
  const RequestBodyKind := "request body"
  const ReceivedDataKind := "recieved data"
  const SendDataKind := "send data"

  /** The entry's type tag is exactly `tag`. */
  predicate HasKind(e: LogEntry, tag: string) {
    e.kind == Some(tag)
  }
}

=== FILE: log_parser.dfy ===
/** Line decoding and request correlation: the log text is split into lines,
    blank and undecodable lines are dropped, and the decoded entries are
    grouped by their truthy `reqId` in first-seen order. */
module LogParser {
  import opened Js
  import opened LogEntries

  // ---------------------------------------------------------------------
  // parseJsonl
  // ---------------------------------------------------------------------

  /** What `JSON.parse` returns for a line that is valid JSON: the literal
      `null`, another non-object value (a number, string, boolean or array,
      none of which has a `reqId`), or an object read as a log entry. */
  datatype Value = NullValue | OtherValue | ObjectValue(entry: LogEntry)

  /** The decoded lines, in order: blank lines are filtered out first, then
      every line `decodeLine` rejects (a `SyntaxError`) is skipped. */
  function ParseLines(lines: seq<string>, decodeLine: string -> Option<Value>): (r: seq<Value>)
    ensures |r| <= |lines|
  {
    if |lines| == 0 then []
    else
      var rest := ParseLines(lines[..|lines| - 1], decodeLine);
      var line := lines[|lines| - 1];
      if IsBlank(line) then rest
      else
        match decodeLine(line)
        case Some(v) => rest + [v]
        case None => rest
  }

  /** `LogParser.parseJsonl`. */
  function ParseJsonl(content: string, decodeLine: string -> Option<Value>): seq<Value> {
    ParseLines(SplitLines(content), decodeLine)
  }

  /** A line contributes nothing when it is blank or does not decode. */
  predicate Dropped(line: string, decodeLine: string -> Option<Value>) {
    IsBlank(line) || decodeLine(line).None?
  }

  lemma ParseLinesSnoc(lines: seq<string>, line: string, decodeLine: string -> Option<Value>)
    ensures ParseLines(lines + [line], decodeLine) ==
      ParseLines(lines, decodeLine) + (if Dropped(line, decodeLine) then [] else [decodeLine(line).value])
  {
    assert (lines + [line])[..|lines|] == lines;
  }

  /** Decoding distributes over concatenation of line lists. */
  lemma {:induction false} ParseLinesAppend(a: seq<string>, b: seq<string>, decodeLine: string -> Option<Value>)
    ensures ParseLines(a + b, decodeLine) == ParseLines(a, decodeLine) + ParseLines(b, decodeLine)
    decreases |b|
  {
    if |b| == 0 {
      assert a + b == a;
    } else {
      var q := b[..|b| - 1];
      var x := b[|b| - 1];
      assert a + b == (a + q) + [x] && b == q + [x];
      ParseLinesAppend(a, q, decodeLine);
      ParseLinesSnoc(a + q, x, decodeLine);
      ParseLinesSnoc(q, x, decodeLine);
    }
  }

  /** Removing a blank or undecodable line leaves the output unchanged. */
  lemma DroppedLineIsIgnored(a: seq<string>, line: string, b: seq<string>, decodeLine: string -> Option<Value>)
    requires Dropped(line, decodeLine)
    ensures ParseLines(a + [line] + b, decodeLine) == ParseLines(a + b, decodeLine)
  {
    ParseLinesAppend(a + [line], b, decodeLine);
    ParseLinesAppend(a, b, decodeLine);
    ParseLinesSnoc(a, line, decodeLine);
  }

  predicate NewlineFree(pieces: seq<string>) {
    forall i :: 0 <= i < |pieces| ==> '\n' !in pieces[i]
  }

  lemma NewlineFreeConcat(x: seq<string>, y: seq<string>)
    requires NewlineFree(x) && NewlineFree(y)
    ensures NewlineFree(x + y)
  {
    forall i | 0 <= i < |x + y| ensures '\n' !in (x + y)[i] {
      if i < |x| {
        assert (x + y)[i] == x[i];
      } else {
        assert (x + y)[i] == y[i - |x|];
      }
    }
  }

  /** The same law on the text itself: inserting a blank or malformed line
      between newline-free lines changes nothing. */
  lemma MalformedLineIsIgnored(a: seq<string>, line: string, b: seq<string>, decodeLine: string -> Option<Value>)
    requires |a + b| >= 1
    requires NewlineFree(a) && NewlineFree(b) && '\n' !in line
    requires Dropped(line, decodeLine)
    ensures ParseJsonl(JoinLines(a + [line] + b), decodeLine) == ParseJsonl(JoinLines(a + b), decodeLine)
  {
    assert NewlineFree([line]);
    NewlineFreeConcat(a, [line]);
    NewlineFreeConcat(a + [line], b);
    NewlineFreeConcat(a, b);
    SplitJoinLines(a + [line] + b);
    SplitJoinLines(a + b);
    DroppedLineIsIgnored(a, line, b, decodeLine);
  }

  /** Every decoded value comes from a kept line, and every kept line yields one. */
  lemma {:induction false} ParseLinesMeaning(lines: seq<string>, decodeLine: string -> Option<Value>)
    ensures forall v :: v in ParseLines(lines, decodeLine) ==>
      exists i :: 0 <= i < |lines| && !Dropped(lines[i], decodeLine) && decodeLine(lines[i]) == Some(v)
    ensures forall i :: 0 <= i < |lines| && !Dropped(lines[i], decodeLine) ==>
      decodeLine(lines[i]).value in ParseLines(lines, decodeLine)
    decreases |lines|
  {
    if |lines| > 0 {
      var p := lines[..|lines| - 1];
      var x := lines[|lines| - 1];
      ParseLinesMeaning(p, decodeLine);
      assert lines == p + [x];
      ParseLinesSnoc(p, x, decodeLine);
      forall v | v in ParseLines(lines, decodeLine)
        ensures exists i :: 0 <= i < |lines| && !Dropped(lines[i], decodeLine) && decodeLine(lines[i]) == Some(v)
      {
        if v in ParseLines(p, decodeLine) {
          var i :| 0 <= i < |p| && !Dropped(p[i], decodeLine) && decodeLine(p[i]) == Some(v);
          assert lines[i] == p[i];
        } else {
          assert lines[|p|] == x;
        }
      }
      forall i | 0 <= i < |lines| && !Dropped(lines[i], decodeLine)
        ensures decodeLine(lines[i]).value in ParseLines(lines, decodeLine)
      {
        if i < |p| {
          assert lines[i] == p[i];
        }
      }
    }
  }

  /** Blank lines never produce a value. */
  lemma {:induction false} BlankLinesProduceNothing(lines: seq<string>, decodeLine: string -> Option<Value>)
    requires forall i :: 0 <= i < |lines| ==> IsBlank(lines[i])
    ensures ParseLines(lines, decodeLine) == []
    decreases |lines|
  {
    if |lines| > 0 {
      var p := lines[..|lines| - 1];
      assert forall i :: 0 <= i < |p| ==> p[i] == lines[i];
      BlankLinesProduceNothing(p, decodeLine);
    }
  }

  // ---------------------------------------------------------------------
  // groupByRequest
  // ---------------------------------------------------------------------

  /** The grouping: a JavaScript `Map` as its key insertion order plus its
      contents. */
  datatype Grouped = Grouped(order: seq<string>, groups: map<string, seq<LogEntry>>)

  /** The shape every grouping has: each key listed once, exactly the keys
      of the map, every group non-empty and made of its own request's entries. */
  ghost predicate ValidGrouping(g: Grouped) {
    && (forall i, j :: 0 <= i < j < |g.order| ==> g.order[i] != g.order[j])
    && (forall k :: k in g.groups <==> k in g.order)
    && (forall k :: k in g.groups ==> k != "" && |g.groups[k]| > 0)
    && (forall k, i :: k in g.groups && 0 <= i < |g.groups[k]| ==> g.groups[k][i].reqId == Some(k))
  }

  /** The entry has a truthy `reqId`. */
  predicate Correlated(e: LogEntry) {
    Text(e.reqId) != ""
  }

  /** One iteration of the grouping loop. */
  function AddEntry(g: Grouped, e: LogEntry): Grouped {
    if !Correlated(e) then g
    else
      var k := e.reqId.value;
      if k in g.groups then Grouped(g.order, g.groups[k := g.groups[k] + [e]])
      else Grouped(g.order + [k], g.groups[k := [e]])
  }

  /** `LogParser.groupByRequest`. */
  function GroupByRequest(entries: seq<LogEntry>): (g: Grouped)
    ensures ValidGrouping(g)
  {
    if |entries| == 0 then Grouped([], map[])
    else
      var g0 := GroupByRequest(entries[..|entries| - 1]);
      AddEntryValid(g0, entries[|entries| - 1]);
      AddEntry(g0, entries[|entries| - 1])
  }

  lemma AddEntryValid(g: Grouped, e: LogEntry)
    requires ValidGrouping(g)
    ensures ValidGrouping(AddEntry(g, e))
  {
    if Correlated(e) {
      var k := e.reqId.value;
      var g1 := AddEntry(g, e);
      if k in g.groups {
        forall q, i | q in g1.groups && 0 <= i < |g1.groups[q]| ensures g1.groups[q][i].reqId == Some(q) {
          if q == k && i == |g.groups[k]| {
            assert g1.groups[q][i] == e;
          }
        }
      } else {
        assert k !in g.order;
        forall i, j | 0 <= i < j < |g1.order| ensures g1.order[i] != g1.order[j] {
          if j == |g.order| {
            assert g.order[i] in g.order;
          }
        }
      }
    }
  }

  /** The entries of request `k`, in arrival order. */
  function SelectReq(entries: seq<LogEntry>, k: string): seq<LogEntry> {
    if |entries| == 0 then []
    else
      var rest := SelectReq(entries[..|entries| - 1], k);
      if entries[|entries| - 1].reqId == Some(k) then rest + [entries[|entries| - 1]] else rest
  }

  lemma SelectReqSnoc(entries: seq<LogEntry>, e: LogEntry, k: string)
    ensures SelectReq(entries + [e], k) == SelectReq(entries, k) + (if e.reqId == Some(k) then [e] else [])
  {
    assert (entries + [e])[..|entries|] == entries;
  }

  /** `SelectReq` is the in-order sublist of entries whose `reqId` is `k`. */
  lemma {:induction false} SelectReqMeaning(entries: seq<LogEntry>, k: string)
    ensures forall i :: 0 <= i < |SelectReq(entries, k)| ==>
      SelectReq(entries, k)[i].reqId == Some(k) && SelectReq(entries, k)[i] in entries
    ensures |SelectReq(entries, k)| == 0 <==> forall i :: 0 <= i < |entries| ==> entries[i].reqId != Some(k)
    decreases |entries|
  {
    if |entries| > 0 {
      var p := entries[..|entries| - 1];
      SelectReqMeaning(p, k);
      assert forall i :: 0 <= i < |p| ==> p[i] == entries[i];
    }
  }

  /** Some entry carries `reqId == k`. */
  ghost predicate Mentions(entries: seq<LogEntry>, k: string) {
    exists i :: 0 <= i < |entries| && entries[i].reqId == Some(k)
  }

  /** Grouping law: the keys are exactly the truthy `reqId`s, and the group
      of `k` is exactly the in-order sublist of entries with `reqId == k`. */
  lemma {:induction false} GroupByRequestLaw(entries: seq<LogEntry>)
    ensures forall k :: k in GroupByRequest(entries).groups ==>
      GroupByRequest(entries).groups[k] == SelectReq(entries, k)
    ensures forall k :: k in GroupByRequest(entries).groups <==> k != "" && |SelectReq(entries, k)| > 0
    decreases |entries|
  {
    if |entries| > 0 {
      var p := entries[..|entries| - 1];
      var e := entries[|entries| - 1];
      GroupByRequestLaw(p);
      assert entries == p + [e];
      forall k ensures SelectReq(entries, k) == SelectReq(p, k) + (if e.reqId == Some(k) then [e] else []) {
        SelectReqSnoc(p, e, k);
      }
    }
  }

  /** Entries without a truthy `reqId` appear in no group. */
  lemma UncorrelatedAreDropped(entries: seq<LogEntry>, e: LogEntry)
    requires !Correlated(e)
    ensures forall k :: k in GroupByRequest(entries).groups ==> e !in GroupByRequest(entries).groups[k]
  {
  }

  /** Position of the first entry of request `k`, or `|entries|` if none. */
  function FirstAt(entries: seq<LogEntry>, k: string): (n: nat)
    ensures n <= |entries|
  {
    if |entries| == 0 then 0
    else
      var p := entries[..|entries| - 1];
      if FirstAt(p, k) < |p| then FirstAt(p, k)
      else if entries[|entries| - 1].reqId == Some(k) then |p|
      else |entries|
  }

  lemma {:induction false} FirstAtMeaning(entries: seq<LogEntry>, k: string)
    ensures FirstAt(entries, k) < |entries| ==> entries[FirstAt(entries, k)].reqId == Some(k)
    ensures forall j :: 0 <= j < FirstAt(entries, k) && j < |entries| ==> entries[j].reqId != Some(k)
    decreases |entries|
  {
    if |entries| > 0 {
      var p := entries[..|entries| - 1];
      FirstAtMeaning(p, k);
      assert forall j :: 0 <= j < |p| ==> p[j] == entries[j];
    }
  }

  /** Keys appear in first-seen order. */
  lemma {:induction false} GroupOrderIsFirstSeen(entries: seq<LogEntry>)
    ensures forall i, j :: 0 <= i < j < |GroupByRequest(entries).order| ==>
      FirstAt(entries, GroupByRequest(entries).order[i]) < FirstAt(entries, GroupByRequest(entries).order[j])
    ensures forall i :: 0 <= i < |GroupByRequest(entries).order| ==>
      FirstAt(entries, GroupByRequest(entries).order[i]) < |entries|
    decreases |entries|
  {
    if |entries| > 0 {
      var p := entries[..|entries| - 1];
      var e := entries[|entries| - 1];
      var g := GroupByRequest(p);
      var o := GroupByRequest(entries).order;
      GroupOrderIsFirstSeen(p);
      forall i | 0 <= i < |g.order| ensures FirstAt(entries, g.order[i]) == FirstAt(p, g.order[i]) {
      }
      if Correlated(e) && e.reqId.value !in g.groups {
        var k := e.reqId.value;
        assert o == g.order + [k];
        GroupByRequestLaw(p);
        SelectReqMeaning(p, k);
        FirstAtMeaning(p, k);
        assert FirstAt(p, k) == |p|;
        assert FirstAt(entries, k) == |p|;
      }
    }
  }

  /** Number of entries with a truthy `reqId`. */
  function CountCorrelated(entries: seq<LogEntry>): nat {
    if |entries| == 0 then 0
    else CountCorrelated(entries[..|entries| - 1]) + (if Correlated(entries[|entries| - 1]) then 1 else 0)
  }

  /** Sum of the sizes of the groups listed in `order`. */
  function TotalSize(order: seq<string>, groups: map<string, seq<LogEntry>>): nat {
    if |order| == 0 then 0
    else
      TotalSize(order[..|order| - 1], groups)
      + (if order[|order| - 1] in groups then |groups[order[|order| - 1]]| else 0)
  }

  lemma {:induction false} TotalSizeUpdate(order: seq<string>, groups: map<string, seq<LogEntry>>, k: string, v: seq<LogEntry>)
    requires forall i, j :: 0 <= i < j < |order| ==> order[i] != order[j]
    ensures k in order && k in groups ==> TotalSize(order, groups[k := v]) == TotalSize(order, groups) - |groups[k]| + |v|
    ensures k !in order ==> TotalSize(order, groups[k := v]) == TotalSize(order, groups)
    decreases |order|
  {
    if |order| > 0 {
      var p := order[..|order| - 1];
      var last := order[|order| - 1];
      TotalSizeUpdate(p, groups, k, v);
      if k == last {
        assert k !in p by {
          forall i | 0 <= i < |p| ensures p[i] != k {
            assert p[i] == order[i];
          }
        }
      } else if k in order {
        assert k in p by {
          var i :| 0 <= i < |order| && order[i] == k;
          assert p[i] == k;
        }
      }
    }
  }

  lemma TotalSizeSnoc(order: seq<string>, k: string, groups: map<string, seq<LogEntry>>)
    requires k in groups
    ensures TotalSize(order + [k], groups) == TotalSize(order, groups) + |groups[k]|
  {
    assert (order + [k])[..|order|] == order;
  }

  /** No entry is lost or duplicated: the group sizes add up to the number of
      entries with a truthy `reqId`. */
  lemma {:induction false} GroupSizesAddUp(entries: seq<LogEntry>)
    ensures TotalSize(GroupByRequest(entries).order, GroupByRequest(entries).groups) == CountCorrelated(entries)
    decreases |entries|
  {
    if |entries| > 0 {
      var p := entries[..|entries| - 1];
      var e := entries[|entries| - 1];
      var g := GroupByRequest(p);
      GroupSizesAddUp(p);
      if Correlated(e) {
        var k := e.reqId.value;
        if k in g.groups {
          TotalSizeUpdate(g.order, g.groups, k, g.groups[k] + [e]);
        } else {
          TotalSizeUpdate(g.order, g.groups, k, [e]);
          TotalSizeSnoc(g.order, k, g.groups[k := [e]]);
        }
      }
    }
  }

  // ---------------------------------------------------------------------
  // The grouping loop over decoded values
  // ---------------------------------------------------------------------

  /** `groupByRequest` applied to `parseJsonl`'s output: reading `reqId` of a
      `null` value throws a TypeError; other non-objects have no `reqId`. */
  function GroupValues(values: seq<Value>): Completion<Grouped> {
    if |values| == 0 then Normal(Grouped([], map[]))
    else
      match GroupValues(values[..|values| - 1])
      case TypeError => TypeError
      case Normal(g) =>
        match values[|values| - 1]
        case NullValue => TypeError
        case OtherValue => Normal(g)
        case ObjectValue(e) => Normal(AddEntry(g, e))
  }

  /** The log entries among decoded values, in order. */
  function Entries(values: seq<Value>): seq<LogEntry> {
    if |values| == 0 then []
    else
      var rest := Entries(values[..|values| - 1]);
      match values[|values| - 1]
      case ObjectValue(e) => rest + [e]
      case _ => rest
  }

  /** The grouping fails exactly when some line decoded to `null`; otherwise
      it groups the decoded log entries. */
  lemma {:induction false} GroupValuesMeaning(values: seq<Value>)
    ensures GroupValues(values).TypeError? <==> exists i :: 0 <= i < |values| && values[i].NullValue?
    ensures GroupValues(values).Normal? ==> GroupValues(values).value == GroupByRequest(Entries(values))
    decreases |values|
  {
    if |values| > 0 {
      var p := values[..|values| - 1];
      var x := values[|values| - 1];
      GroupValuesMeaning(p);
      assert forall i :: 0 <= i < |p| ==> p[i] == values[i];
      if x.ObjectValue? {
        assert (Entries(p) + [x.entry])[..|Entries(p)|] == Entries(p);
      }
      if x.NullValue? {
        assert values[|p|].NullValue?;
      }
    }
  }
}

=== FILE: logs_service.dfy ===
/** Per-request reconstruction, summaries and the session store: each group
    of log entries is folded into one parsed request, each session maps
    request ids to parsed requests, and the list view derives one summary
    per request, ordered by timestamp. */
module LogsService {
  import opened Js
  import opened Seqs
  import opened LogEntries
  import opened ResponseAggregator
  import opened LogParser

  // ---------------------------------------------------------------------
  // The parsed request
  // ---------------------------------------------------------------------

  /** The upstream call: `requestUrl`, `headers` and `request.body` of the
      final-request entry, each possibly undefined. */
  datatype FinalRequest = FinalRequest(url: Option<string>, headers: Option<map<string, string>>, body: Option<string>)

  /** The backward-compatible usage block derived from the merged usage. */
  datatype LegacyUsage = LegacyUsage(inputTokens: int, outputTokens: int, totalTokens: int, cacheReadInputTokens: int)

  /** `ParsedRequest`; `httpMethod` is the property `method`. */
  datatype ParsedRequest = ParsedRequest(
    reqId: string,
    httpMethod: string,
    url: string,
    model: string,
    statusCode: int,
    responseTime: real,
    timestamp: int,
    requestHeaders: map<string, string>,
    requestBody: Option<Json>,
    finalRequest: Option<FinalRequest>,
    mergedResponse: Option<OpenAIResponse>,
    responseContent: string,
    responseChunks: seq<LogEntry>,
    usage: Option<LegacyUsage>)

  const DefaultMethod := "POST"
  const DefaultUrl := "/v1/messages"
  const DefaultStatus := 200

  // ---------------------------------------------------------------------
  // The entry fold of parseRequestEntries
  // ---------------------------------------------------------------------

  /** The loop's local variables. */
  datatype Accum = Accum(
    httpMethod: string,
    url: string,
    model: string,
    statusCode: int,
    responseTime: real,
    timestamp: int,
    requestHeaders: map<string, string>,
    requestBody: Option<Json>,
    finalRequest: Option<FinalRequest>,
    responseChunks: seq<LogEntry>)

  const Initial := Accum(DefaultMethod, DefaultUrl, Unknown, DefaultStatus, 0.0, 0, map[], None, None, [])

  /** An `incoming request` entry that carries `req`. */
  predicate IsIncoming(e: LogEntry) {
    e.msg == IncomingRequest && e.req.Some?
  }

  /** A `request body` entry with a truthy `data`. */
  predicate IsRequestBody(e: LogEntry) {
    HasKind(e, RequestBodyKind) && Present(e.data)
  }

  predicate IsFinalRequest(e: LogEntry) {
    e.msg == FinalRequestMsg
  }

  predicate IsReceivedData(e: LogEntry) {
    HasKind(e, ReceivedDataKind)
  }

  predicate IsCompleted(e: LogEntry) {
    e.msg == RequestCompleted
  }

  /** The `data.model` of a request-body entry, "" when it is not a truthy string. */
  function BodyModel(e: LogEntry): string {
    if IsRequestBody(e) then Text(GetStr(e.data.value, "model")) else ""
  }

  function FinalRequestOf(e: LogEntry): FinalRequest {
    FinalRequest(e.requestUrl, e.headers, if e.request.Some? then Some(e.request.value.body) else None)
  }

  /** What a request-completed entry records: `res?.statusCode || 200` and
      `responseTime || 0`. */
  datatype Outcome = Outcome(statusCode: int, responseTime: real)

  function OutcomeOf(e: LogEntry): Outcome {
    Outcome(if e.res.Some? && e.res.value.statusCode != 0 then e.res.value.statusCode else DefaultStatus,
            if e.responseTime.Some? && e.responseTime.value != 0.0 then e.responseTime.value else 0.0)
  }

  /** One loop iteration; the six tests are independent `if`s. */
  function Observe(a: Accum, e: LogEntry): Accum {
    var a1 := if a.timestamp == 0 && e.time != 0 then a.(timestamp := e.time) else a;
    var a2 := if IsIncoming(e) then a1.(httpMethod := e.req.value.httpMethod, url := e.req.value.url) else a1;
    var a3 := if IsRequestBody(e) then a2.(requestBody := e.data, model := if BodyModel(e) != "" then BodyModel(e) else a2.model)
              else a2;
    var a4 := if IsFinalRequest(e) then a3.(finalRequest := Some(FinalRequestOf(e)), requestHeaders := e.headers.GetOr(map[]))
              else a3;
    var a5 := if IsReceivedData(e) then a4.(responseChunks := a4.responseChunks + [e]) else a4;
    if IsCompleted(e) then a5.(statusCode := OutcomeOf(e).statusCode, responseTime := OutcomeOf(e).responseTime) else a5
  }

  function ObserveAll(entries: seq<LogEntry>): Accum {
    if |entries| == 0 then Initial else Observe(ObserveAll(entries[..|entries| - 1]), entries[|entries| - 1])
  }

  /** `mergedResponse?.choices?.[0]?.message?.content || ''`. */
  function ContentOf(merged: Option<OpenAIResponse>): string {
    if merged.Some? && |merged.value.choices| > 0 then merged.value.choices[0].message.content.GetOr("") else ""
  }

  /** The legacy usage block: present exactly when the merged response has usage. */
  function LegacyUsageOf(merged: Option<OpenAIResponse>): (r: Option<LegacyUsage>)
    ensures r.Some? <==> merged.Some? && merged.value.usage.Some?
    ensures r.Some? ==> var u := merged.value.usage.value;
      && r.value.inputTokens == u.promptTokens
      && r.value.outputTokens == u.completionTokens
      && r.value.totalTokens == u.totalTokens
      && r.value.cacheReadInputTokens == (if u.promptTokensDetails.Some? then u.promptTokensDetails.value.cachedTokens else 0)
  {
    if merged.Some? && merged.value.usage.Some? then
      var u := merged.value.usage.value;
      Some(LegacyUsage(u.promptTokens, u.completionTokens, u.totalTokens,
                       match u.promptTokensDetails
                       case Some(d) => d.cachedTokens
                       case None => 0))
    else None
  }

  /** `parseRequestEntries`; `decodeJson` and `now` are passed on to the chunk merge. */
  function ParseRequestEntries(reqId: string, entries: seq<LogEntry>, decodeJson: string -> Option<Json>, now: int)
    : (r: ParsedRequest)
    ensures r.reqId == reqId
    ensures r.responseContent == AggregateChunks(r.responseChunks, decodeJson, now)
    ensures r.usage.Some? <==> r.mergedResponse.Some? && r.mergedResponse.value.usage.Some?
  {
    var a := ObserveAll(entries);
    var merged := MergeChunksToResponse(a.responseChunks, decodeJson, now);
    ParsedRequest(reqId, a.httpMethod, a.url, a.model, a.statusCode, a.responseTime, a.timestamp,
                  a.requestHeaders, a.requestBody, a.finalRequest, merged, ContentOf(merged),
                  a.responseChunks, LegacyUsageOf(merged))
  }

  // ---------------------------------------------------------------------
  // The fold against reference definitions
  // ---------------------------------------------------------------------

  function Times(es: seq<LogEntry>): seq<int> {
    seq(|es|, i requires 0 <= i < |es| => es[i].time)
  }

  function Incomings(es: seq<LogEntry>): seq<Option<Req>> {
    seq(|es|, i requires 0 <= i < |es| => if IsIncoming(es[i]) then es[i].req else None)
  }

  function Bodies(es: seq<LogEntry>): seq<Option<Json>> {
    seq(|es|, i requires 0 <= i < |es| => if IsRequestBody(es[i]) then es[i].data else None)
  }

  function BodyModels(es: seq<LogEntry>): seq<string> {
    seq(|es|, i requires 0 <= i < |es| => BodyModel(es[i]))
  }

  function Finals(es: seq<LogEntry>): seq<Option<FinalRequest>> {
    seq(|es|, i requires 0 <= i < |es| => if IsFinalRequest(es[i]) then Some(FinalRequestOf(es[i])) else None)
  }

  function Outcomes(es: seq<LogEntry>): seq<Option<Outcome>> {
    seq(|es|, i requires 0 <= i < |es| => if IsCompleted(es[i]) then Some(OutcomeOf(es[i])) else None)
  }

  lemma TimesSnoc(p: seq<LogEntry>, e: LogEntry)
    ensures Times(p + [e]) == Times(p) + [e.time]
  {
  }

  lemma IncomingsSnoc(p: seq<LogEntry>, e: LogEntry)
    ensures Incomings(p + [e]) == Incomings(p) + [if IsIncoming(e) then e.req else None]
  {
  }

  lemma BodiesSnoc(p: seq<LogEntry>, e: LogEntry)
    ensures Bodies(p + [e]) == Bodies(p) + [if IsRequestBody(e) then e.data else None]
    ensures BodyModels(p + [e]) == BodyModels(p) + [BodyModel(e)]
  {
  }

  lemma FinalsSnoc(p: seq<LogEntry>, e: LogEntry)
    ensures Finals(p + [e]) == Finals(p) + [if IsFinalRequest(e) then Some(FinalRequestOf(e)) else None]
  {
  }

  lemma OutcomesSnoc(p: seq<LogEntry>, e: LogEntry)
    ensures Outcomes(p + [e]) == Outcomes(p) + [if IsCompleted(e) then Some(OutcomeOf(e)) else None]
  {
  }

  /** One loop iteration, field by field: each field is touched by one test only. */
  lemma ObserveEffect(a: Accum, e: LogEntry)
    ensures var b := Observe(a, e);
      && b.timestamp == (if a.timestamp != 0 then a.timestamp else e.time)
      && b.httpMethod == (if IsIncoming(e) then e.req.value.httpMethod else a.httpMethod)
      && b.url == (if IsIncoming(e) then e.req.value.url else a.url)
      && b.requestBody == (if IsRequestBody(e) then e.data else a.requestBody)
      && b.model == (if BodyModel(e) != "" then BodyModel(e) else a.model)
      && b.finalRequest == (if IsFinalRequest(e) then Some(FinalRequestOf(e)) else a.finalRequest)
      && b.requestHeaders == (if IsFinalRequest(e) then e.headers.GetOr(map[]) else a.requestHeaders)
      && b.responseChunks == (if IsReceivedData(e) then a.responseChunks + [e] else a.responseChunks)
      && b.statusCode == (if IsCompleted(e) then OutcomeOf(e).statusCode else a.statusCode)
      && b.responseTime == (if IsCompleted(e) then OutcomeOf(e).responseTime else a.responseTime)
  {
  }

  /** `timestamp` is the first truthy `time` in group order, else 0. */
  lemma {:induction false} TimestampLaw(es: seq<LogEntry>)
    ensures ObserveAll(es).timestamp == FirstTruthy(Times(es), 0)
    decreases |es|
  {
    if |es| > 0 {
      var p := es[..|es| - 1];
      var e := es[|es| - 1];
      TimestampLaw(p);
      assert es == p + [e];
      TimesSnoc(p, e);
      ObserveEffect(ObserveAll(p), e);
      FirstTruthySnoc(Times(p), e.time, 0);
    }
  }

  /** `method` and `url` come from the last incoming-request entry carrying `req`. */
  lemma {:induction false} IncomingLaw(es: seq<LogEntry>)
    ensures ObserveAll(es).httpMethod == (match LastSome(Incomings(es)) case Some(r) => r.httpMethod case None => DefaultMethod)
    ensures ObserveAll(es).url == (match LastSome(Incomings(es)) case Some(r) => r.url case None => DefaultUrl)
    decreases |es|
  {
    if |es| > 0 {
      var p := es[..|es| - 1];
      var e := es[|es| - 1];
      IncomingLaw(p);
      assert es == p + [e];
      IncomingsSnoc(p, e);
      ObserveEffect(ObserveAll(p), e);
      LastSomeSnoc(Incomings(p), if IsIncoming(e) then e.req else None);
    }
  }

  /** `requestBody` is the `data` of the last request-body entry; `model` is
      the last truthy `data.model`, else "unknown". */
  lemma {:induction false} RequestBodyLaw(es: seq<LogEntry>)
    ensures ObserveAll(es).requestBody == LastSome(Bodies(es))
    ensures ObserveAll(es).model == LastTruthy(BodyModels(es), "", Unknown)
    decreases |es|
  {
    if |es| > 0 {
      var p := es[..|es| - 1];
      var e := es[|es| - 1];
      RequestBodyLaw(p);
      assert es == p + [e];
      BodiesSnoc(p, e);
      ObserveEffect(ObserveAll(p), e);
      LastSomeSnoc(Bodies(p), if IsRequestBody(e) then e.data else None);
      LastTruthySnoc(BodyModels(p), BodyModel(e), "", Unknown);
    }
  }

  /** `finalRequest` and `requestHeaders` come from the last final-request entry. */
  lemma {:induction false} FinalRequestLaw(es: seq<LogEntry>)
    ensures ObserveAll(es).finalRequest == LastSome(Finals(es))
    ensures ObserveAll(es).requestHeaders ==
      (match LastSome(Finals(es)) case Some(f) => f.headers.GetOr(map[]) case None => map[])
    decreases |es|
  {
    if |es| > 0 {
      var p := es[..|es| - 1];
      var e := es[|es| - 1];
      FinalRequestLaw(p);
      assert es == p + [e];
      FinalsSnoc(p, e);
      ObserveEffect(ObserveAll(p), e);
      LastSomeSnoc(Finals(p), if IsFinalRequest(e) then Some(FinalRequestOf(e)) else None);
    }
  }

  /** `statusCode` and `responseTime` come from the last request-completed
      entry, with the fallbacks 200 and 0. */
  lemma {:induction false} OutcomeLaw(es: seq<LogEntry>)
    ensures ObserveAll(es).statusCode == (match LastSome(Outcomes(es)) case Some(o) => o.statusCode case None => DefaultStatus)
    ensures ObserveAll(es).responseTime == (match LastSome(Outcomes(es)) case Some(o) => o.responseTime case None => 0.0)
    decreases |es|
  {
    if |es| > 0 {
      var p := es[..|es| - 1];
      var e := es[|es| - 1];
      OutcomeLaw(p);
      assert es == p + [e];
      OutcomesSnoc(p, e);
      ObserveEffect(ObserveAll(p), e);
      LastSomeSnoc(Outcomes(p), if IsCompleted(e) then Some(OutcomeOf(e)) else None);
    }
  }

  /** `responseChunks` is exactly the in-order sublist of received-data entries. */
  lemma {:induction false} ChunksLaw(es: seq<LogEntry>)
    ensures ObserveAll(es).responseChunks == Filter(es, IsReceivedData)
    decreases |es|
  {
    if |es| > 0 {
      var p := es[..|es| - 1];
      var e := es[|es| - 1];
      ChunksLaw(p);
      assert es == p + [e];
      ObserveEffect(ObserveAll(p), e);
      FilterSnoc(p, e, IsReceivedData);
    }
  }

  /** The parsed request against the reference definitions: first-wins
      timestamp, last-wins request fields, and the merged response of the
      received-data entries. */
  lemma ParseRequestEntriesLaw(reqId: string, es: seq<LogEntry>, decodeJson: string -> Option<Json>, now: int)
    ensures var r := ParseRequestEntries(reqId, es, decodeJson, now);
      && r.timestamp == FirstTruthy(Times(es), 0)
      && r.httpMethod == (match LastSome(Incomings(es)) case Some(q) => q.httpMethod case None => DefaultMethod)
      && r.url == (match LastSome(Incomings(es)) case Some(q) => q.url case None => DefaultUrl)
      && r.requestBody == LastSome(Bodies(es))
      && r.model == LastTruthy(BodyModels(es), "", Unknown)
      && r.finalRequest == LastSome(Finals(es))
      && r.requestHeaders == (match LastSome(Finals(es)) case Some(f) => f.headers.GetOr(map[]) case None => map[])
      && r.statusCode == (match LastSome(Outcomes(es)) case Some(o) => o.statusCode case None => DefaultStatus)
      && r.responseTime == (match LastSome(Outcomes(es)) case Some(o) => o.responseTime case None => 0.0)
      && r.responseChunks == Filter(es, IsReceivedData)
      && r.mergedResponse == MergeChunksToResponse(Filter(es, IsReceivedData), decodeJson, now)
  {
    TimestampLaw(es);
    IncomingLaw(es);
    RequestBodyLaw(es);
    FinalRequestLaw(es);
    OutcomeLaw(es);
    ChunksLaw(es);
  }

  /** An entry none of the loop's tests fires on. */
  predicate Inert(e: LogEntry) {
    && e.time == 0 && !IsIncoming(e) && !IsRequestBody(e)
    && !IsFinalRequest(e) && !IsReceivedData(e) && !IsCompleted(e)
  }

  lemma {:induction false} InertEntriesKeepInitial(es: seq<LogEntry>)
    requires forall i :: 0 <= i < |es| ==> Inert(es[i])
    ensures ObserveAll(es) == Initial
    decreases |es|
  {
    if |es| > 0 {
      var p := es[..|es| - 1];
      assert forall i :: 0 <= i < |p| ==> p[i] == es[i];
      InertEntriesKeepInitial(p);
      ObserveEffect(Initial, es[|es| - 1]);
    }
  }

  /** With no matching entries and no truthy `time`, every field keeps its
      initial value and there is no response. */
  lemma DefaultsLaw(reqId: string, es: seq<LogEntry>, decodeJson: string -> Option<Json>, now: int)
    requires forall i :: 0 <= i < |es| ==> Inert(es[i])
    ensures var r := ParseRequestEntries(reqId, es, decodeJson, now);
      && r.httpMethod == DefaultMethod && r.url == DefaultUrl && r.model == Unknown
      && r.statusCode == DefaultStatus && r.responseTime == 0.0 && r.timestamp == 0
      && r.requestHeaders == map[] && r.requestBody.None? && r.finalRequest.None?
      && r.responseChunks == [] && r.mergedResponse.None? && r.responseContent == "" && r.usage.None?
  {
    InertEntriesKeepInitial(es);
  }

  // ---------------------------------------------------------------------
  // isSummarizationRequest
  // ---------------------------------------------------------------------

  const SummarizeMarker := "Summarize this coding conversation"
  const TopicMarker := "Analyze if this message indicates a new conversation topic"

  predicate ContainsMarker(text: string) {
    Contains(text, SummarizeMarker) || Contains(text, TopicMarker)
  }

  /** `Array.isArray(body.tools) && body.tools.length > 0`. */
  predicate HasTools(body: Json) {
    match Get(body, "tools")
    case Some(JArr(items)) => |items| > 0
    case _ => false
  }

  /** One element of an array `system`: a string containing a marker, or a
      truthy value whose `text` is a string containing a marker. */
  predicate ElementMentions(s: Json) {
    || (s.JStr? && ContainsMarker(s.s))
    || (Truthy(s) && GetStr(s, "text").Some? && ContainsMarker(GetStr(s, "text").value))
  }

  /** `items.some(ElementMentions)`, evaluated left to right. */
  function AnyMentions(items: seq<Json>): bool {
    if |items| == 0 then false else ElementMentions(items[0]) || AnyMentions(items[1..])
  }

  lemma {:induction false} AnyMentionsMeaning(items: seq<Json>)
    ensures AnyMentions(items) <==> exists i :: 0 <= i < |items| && ElementMentions(items[i])
    decreases |items|
  {
    if |items| > 0 {
      AnyMentionsMeaning(items[1..]);
      assert forall i :: 1 <= i < |items| ==> items[1..][i - 1] == items[i];
      if !ElementMentions(items[0]) && exists i :: 0 <= i < |items| && ElementMentions(items[i]) {
        var i :| 0 <= i < |items| && ElementMentions(items[i]);
        assert ElementMentions(items[1..][i - 1]);
      }
    }
  }

  /** `isSummarizationRequest`, with its early returns. */
  function IsSummarizationRequest(body: Json): bool {
    if HasTools(body) then false
    else
      var system := Get(body, "system");
      if !Present(system) then false
      else
        match system.value
        case JStr(s) => ContainsMarker(s)
        case JArr(items) => AnyMentions(items)
        case _ => false
  }

  /** Classification law: a summarization request has no non-empty `tools`
      array and a `system` that is a string containing a marker, or an array
      with an element that mentions one. */
  lemma SummarizationIff(body: Json)
    ensures IsSummarizationRequest(body) <==>
      && !HasTools(body)
      && Get(body, "system").Some?
      && ((Get(body, "system").value.JStr? && ContainsMarker(Get(body, "system").value.s))
          || (Get(body, "system").value.JArr? &&
                exists i :: 0 <= i < |Get(body, "system").value.items| &&
                              ElementMentions(Get(body, "system").value.items[i])))
  {
    var system := Get(body, "system");
    if system.Some? && system.value.JArr? {
      AnyMentionsMeaning(system.value.items);
    }
  }

  /** A non-empty `tools` array vetoes the classification. */
  lemma ToolsVeto(body: Json)
    requires HasTools(body)
    ensures !IsSummarizationRequest(body)
  {
  }

  /** A falsy or missing `system` never classifies. */
  lemma FalsySystemVeto(body: Json)
    requires !Present(Get(body, "system"))
    ensures !IsSummarizationRequest(body)
  {
  }

  lemma MarkerAtStart(text: string, marker: string)
    requires |marker| <= |text| && text[..|marker|] == marker
    ensures Contains(text, marker)
  {
    assert OccursAt(text, marker, 0);
  }

  /** `{system: [{type: "text", text: "Summarize this coding conversation ..."}]}`
      is a summarization request; adding a non-empty `tools` array makes it not one. */
  lemma SummarizationExample()
    ensures var block := JObj([Field("type", JStr("text")), Field("text", JStr(SummarizeMarker + " so far."))]);
      && IsSummarizationRequest(JObj([Field("system", JArr([block]))]))
      && !IsSummarizationRequest(JObj([Field("system", JArr([block])), Field("tools", JArr([JObj([])]))]))
  {
    var text := SummarizeMarker + " so far.";
    var block := JObj([Field("type", JStr("text")), Field("text", JStr(text))]);
    assert text[..|SummarizeMarker|] == SummarizeMarker;
    MarkerAtStart(text, SummarizeMarker);
    assert GetStr(block, "text") == Some(text);
    assert ElementMentions(block);
  }

  // ---------------------------------------------------------------------
  // Summaries
  // ---------------------------------------------------------------------

  /** `RequestSummary`. */
  datatype RequestSummary = RequestSummary(
    reqId: string,
    httpMethod: string,
    url: string,
    model: string,
    requestModel: string,
    responseModel: Option<string>,
    statusCode: int,
    responseTime: real,
    timestamp: int,
    systemCount: nat,
    messageCount: nat,
    toolCount: nat,
    inputTokens: Option<int>,
    outputTokens: Option<int>,
    isSummarizationRequest: bool,
    hasThinking: bool)

  /** `req.requestBody || {}`. */
  function BodyOf(req: ParsedRequest): Json {
    if Present(req.requestBody) then req.requestBody.value else JObj([])
  }

  /** Length of the property when it is an array, else 0. */
  function ArrayLength(o: Option<Json>): nat {
    match o
    case Some(JArr(items)) => |items|
    case _ => 0
  }

  /** `systemCount`: the array length, 1 for a truthy scalar, else 0. */
  function SystemCount(body: Json): (n: nat)
    ensures n == 0 <==> !Present(Get(body, "system")) || Get(body, "system").value == JArr([])
  {
    var s := Get(body, "system");
    if s.Some? && s.value.JArr? then |s.value.items|
    else if Present(s) then 1
    else 0
  }

  /** `req.mergedResponse?.model || null`. */
  function ResponseModel(req: ParsedRequest): (r: Option<string>)
    ensures r.Some? <==> req.mergedResponse.Some? && req.mergedResponse.value.model != ""
    ensures r.Some? ==> r.value == req.mergedResponse.value.model
  {
    if req.mergedResponse.Some? && req.mergedResponse.value.model != "" then Some(req.mergedResponse.value.model) else None
  }

  /** `usage?.input_tokens ?? usage?.prompt_tokens ?? null` with
      `usage = req.usage || req.mergedResponse?.usage`. */
  function InputTokens(req: ParsedRequest): Option<int> {
    if req.usage.Some? then Some(req.usage.value.inputTokens)
    else if req.mergedResponse.Some? && req.mergedResponse.value.usage.Some? then Some(req.mergedResponse.value.usage.value.promptTokens)
    else None
  }

  function OutputTokens(req: ParsedRequest): Option<int> {
    if req.usage.Some? then Some(req.usage.value.outputTokens)
    else if req.mergedResponse.Some? && req.mergedResponse.value.usage.Some? then Some(req.mergedResponse.value.usage.value.completionTokens)
    else None
  }

  /** The summary of one stored request. */
  function Summarize(req: ParsedRequest): (s: RequestSummary)
    ensures s.reqId == req.reqId && s.timestamp == req.timestamp
    ensures s.httpMethod == req.httpMethod && s.url == req.url
    ensures s.statusCode == req.statusCode && s.responseTime == req.responseTime
    ensures s.requestModel == (if req.model != "" then req.model else Unknown)
    ensures s.responseModel == ResponseModel(req)
    ensures s.model != "" && s.requestModel != ""
    ensures s.responseModel.Some? ==> s.model == s.responseModel.value
    ensures s.responseModel.None? ==> s.model == s.requestModel
  {
    var body := BodyOf(req);
    var requestModel := if req.model == "" then Unknown else req.model;
    var responseModel := ResponseModel(req);
    RequestSummary(
      req.reqId, req.httpMethod, req.url,
      responseModel.GetOr(requestModel), requestModel, responseModel,
      req.statusCode, req.responseTime, req.timestamp,
      SystemCount(body), ArrayLength(Get(body, "messages")), ArrayLength(Get(body, "tools")),
      InputTokens(req), OutputTokens(req),
      IsSummarizationRequest(body), Present(Get(body, "thinking")))
  }

  /** The summary's payload counts: array lengths, a truthy non-array
      `system` counting as one, and 0 otherwise. */
  lemma SummaryCounts(req: ParsedRequest)
    ensures var s := Summarize(req);
      var system := Get(BodyOf(req), "system");
      var messages := Get(BodyOf(req), "messages");
      var tools := Get(BodyOf(req), "tools");
      && (system.Some? && system.value.JArr? ==> s.systemCount == |system.value.items|)
      && (Present(system) && !system.value.JArr? ==> s.systemCount == 1)
      && (messages.Some? && messages.value.JArr? ==> s.messageCount == |messages.value.items|)
      && (!(messages.Some? && messages.value.JArr?) ==> s.messageCount == 0)
      && (tools.Some? && tools.value.JArr? ==> s.toolCount == |tools.value.items|)
      && (!(tools.Some? && tools.value.JArr?) ==> s.toolCount == 0)
  {
    var s := Summarize(req);
    assert s.systemCount == SystemCount(BodyOf(req));
    assert s.messageCount == ArrayLength(Get(BodyOf(req), "messages"));
    assert s.toolCount == ArrayLength(Get(BodyOf(req), "tools"));
  }

  /** `hasThinking` is the truthiness of `thinking`; a request with a
      non-empty `tools` array is never flagged as a summarization. */
  lemma SummaryFlags(req: ParsedRequest)
    ensures Summarize(req).hasThinking <==> Present(Get(BodyOf(req), "thinking"))
    ensures HasTools(BodyOf(req)) ==> !Summarize(req).isSummarizationRequest
  {
    var s := Summarize(req);
    assert s.hasThinking == Present(Get(BodyOf(req), "thinking"));
    assert s.isSummarizationRequest == IsSummarizationRequest(BodyOf(req));
  }

  /** The token counts fall back from the legacy usage to the merged usage,
      then to null, and are null together. */
  lemma SummaryTokens(req: ParsedRequest)
    ensures var s := Summarize(req);
      && (s.inputTokens.None? <==> req.usage.None? && (req.mergedResponse.None? || req.mergedResponse.value.usage.None?))
      && (s.outputTokens.None? <==> s.inputTokens.None?)
      && (req.usage.Some? ==> s.inputTokens == Some(req.usage.value.inputTokens) && s.outputTokens == Some(req.usage.value.outputTokens))
      && (req.usage.None? && req.mergedResponse.Some? && req.mergedResponse.value.usage.Some? ==>
            && s.inputTokens == Some(req.mergedResponse.value.usage.value.promptTokens)
            && s.outputTokens == Some(req.mergedResponse.value.usage.value.completionTokens))
  {
    var s := Summarize(req);
    assert s.inputTokens == InputTokens(req) && s.outputTokens == OutputTokens(req);
  }

  /** For a reconstructed request the summary's model is the merged response's
      model when there is a merged response, else the last truthy `data.model`
      (or "unknown"); its token counts are the merged usage's prompt and
      completion tokens, and null when the merged response has no usage. */
  lemma SummaryOfParsed(reqId: string, es: seq<LogEntry>, decodeJson: string -> Option<Json>, now: int)
    ensures var r := ParseRequestEntries(reqId, es, decodeJson, now);
      var s := Summarize(r);
      var merged := MergeChunksToResponse(Filter(es, IsReceivedData), decodeJson, now);
      && s.model == (if merged.Some? then merged.value.model else LastTruthy(BodyModels(es), "", Unknown))
      && s.inputTokens == (if merged.Some? && merged.value.usage.Some? then Some(merged.value.usage.value.promptTokens) else None)
      && s.outputTokens == (if merged.Some? && merged.value.usage.Some? then Some(merged.value.usage.value.completionTokens) else None)
  {
    ParseRequestEntriesLaw(reqId, es, decodeJson, now);
    var merged := MergeChunksToResponse(Filter(es, IsReceivedData), decodeJson, now);
    LastTruthyModelIsTruthy(BodyModels(es));
  }

  lemma LastTruthyModelIsTruthy(xs: seq<string>)
    ensures LastTruthy(xs, "", Unknown) != ""
  {
    LastTruthyMeaning(xs, "", Unknown);
  }

  // ---------------------------------------------------------------------
  // Sorting by timestamp (a stable sort)
  // ---------------------------------------------------------------------

  ghost predicate SortedByTime(s: seq<RequestSummary>) {
    forall i, j :: 0 <= i < j < |s| ==> s[i].timestamp <= s[j].timestamp
  }

  /** The summaries with timestamp `t`, in order. */
  function AtTime(s: seq<RequestSummary>, t: int): seq<RequestSummary> {
    if |s| == 0 then []
    else AtTime(s[..|s| - 1], t) + (if s[|s| - 1].timestamp == t then [s[|s| - 1]] else [])
  }

  lemma AtTimeSnoc(s: seq<RequestSummary>, x: RequestSummary, t: int)
    ensures AtTime(s + [x], t) == AtTime(s, t) + (if x.timestamp == t then [x] else [])
  {
    assert (s + [x])[..|s|] == s;
  }

  /** Inserts `x` after every element whose timestamp is not greater. */
  function Insert(s: seq<RequestSummary>, x: RequestSummary): (r: seq<RequestSummary>)
    ensures |r| == |s| + 1
    ensures forall i :: 0 <= i < |r| ==> r[i] == x || r[i] in s
  {
    if |s| == 0 || s[|s| - 1].timestamp <= x.timestamp then s + [x]
    else Insert(s[..|s| - 1], x) + [s[|s| - 1]]
  }

  lemma {:induction false} InsertSorted(s: seq<RequestSummary>, x: RequestSummary)
    requires SortedByTime(s)
    ensures SortedByTime(Insert(s, x))
    decreases |s|
  {
    if |s| > 0 && s[|s| - 1].timestamp > x.timestamp {
      var p := s[..|s| - 1];
      var y := s[|s| - 1];
      assert forall i :: 0 <= i < |p| ==> p[i] == s[i];
      InsertSorted(p, x);
      var q := Insert(p, x);
      forall i | 0 <= i < |q| ensures q[i].timestamp <= y.timestamp {
        if q[i] != x {
          var k :| 0 <= k < |p| && p[k] == q[i];
          assert s[k] == q[i];
        }
      }
    }
  }

  lemma {:induction false} InsertAtTime(s: seq<RequestSummary>, x: RequestSummary, t: int)
    ensures AtTime(Insert(s, x), t) == AtTime(s, t) + (if x.timestamp == t then [x] else [])
    decreases |s|
  {
    if |s| == 0 || s[|s| - 1].timestamp <= x.timestamp {
      AtTimeSnoc(s, x, t);
    } else {
      var p := s[..|s| - 1];
      var y := s[|s| - 1];
      assert s == p + [y];
      InsertAtTime(p, x, t);
      AtTimeSnoc(Insert(p, x), y, t);
      AtTimeSnoc(p, y, t);
    }
  }

  /** `.sort((a, b) => a.timestamp - b.timestamp)`: a stable sort. */
  function SortByTimestamp(s: seq<RequestSummary>): (r: seq<RequestSummary>)
    ensures |r| == |s|
  {
    if |s| == 0 then [] else Insert(SortByTimestamp(s[..|s| - 1]), s[|s| - 1])
  }

  /** The result is ordered by timestamp, and for every timestamp it holds the
      same summaries in the same relative order as the input: a stable
      permutation. */
  lemma {:induction false} SortByTimestampLaw(s: seq<RequestSummary>)
    ensures SortedByTime(SortByTimestamp(s))
    ensures forall t :: AtTime(SortByTimestamp(s), t) == AtTime(s, t)
    decreases |s|
  {
    if |s| > 0 {
      var p := s[..|s| - 1];
      var x := s[|s| - 1];
      SortByTimestampLaw(p);
      InsertSorted(SortByTimestamp(p), x);
      forall t ensures AtTime(SortByTimestamp(s), t) == AtTime(s, t) {
        InsertAtTime(SortByTimestamp(p), x, t);
      }
    }
  }

  // ---------------------------------------------------------------------
  // The session store
  // ---------------------------------------------------------------------

  /** One entry of a session's `Map<string, ParsedRequest>`. */
  datatype Stored = Stored(reqId: string, record: ParsedRequest)

  /** A session: the map's entries in insertion order. */
  datatype Session = Session(entries: seq<Stored>)

  type Store = map<string, Session>

  /** `Map.get`: the record stored under `reqId`. */
  function Find(entries: seq<Stored>, reqId: string): Option<ParsedRequest> {
    if |entries| == 0 then None
    else if entries[|entries| - 1].reqId == reqId then Some(entries[|entries| - 1].record)
    else Find(entries[..|entries| - 1], reqId)
  }

  lemma {:induction false} FindMeaning(entries: seq<Stored>, reqId: string)
    requires forall i, j :: 0 <= i < j < |entries| ==> entries[i].reqId != entries[j].reqId
    ensures Find(entries, reqId).None? <==> forall i :: 0 <= i < |entries| ==> entries[i].reqId != reqId
    ensures forall i :: 0 <= i < |entries| && entries[i].reqId == reqId ==> Find(entries, reqId) == Some(entries[i].record)
    decreases |entries|
  {
    if |entries| > 0 {
      var p := entries[..|entries| - 1];
      assert forall i :: 0 <= i < |p| ==> p[i] == entries[i];
      FindMeaning(p, reqId);
    }
  }

  /** `getRequestDetails`: null for an unknown session or an unknown request. */
  function GetRequestDetails(store: Store, sessionId: string, reqId: string): (r: Option<ParsedRequest>)
    ensures sessionId !in store ==> r.None?
  {
    if sessionId in store then Find(store[sessionId].entries, reqId) else None
  }

  /** Every request id is stored at most once in a session, as in a `Map`. */
  ghost predicate DistinctIds(s: Session) {
    forall i, j :: 0 <= i < j < |s.entries| ==> s.entries[i].reqId != s.entries[j].reqId
  }

  /** In a known session, the details are null exactly for ids that are not
      stored, and otherwise the record stored under the id. */
  lemma GetRequestDetailsLaw(store: Store, sessionId: string, reqId: string)
    requires sessionId in store && DistinctIds(store[sessionId])
    ensures GetRequestDetails(store, sessionId, reqId).None? <==>
      forall i :: 0 <= i < |store[sessionId].entries| ==> store[sessionId].entries[i].reqId != reqId
    ensures forall i :: 0 <= i < |store[sessionId].entries| && store[sessionId].entries[i].reqId == reqId ==>
      GetRequestDetails(store, sessionId, reqId) == Some(store[sessionId].entries[i].record)
  {
    FindMeaning(store[sessionId].entries, reqId);
  }

  function Summaries(entries: seq<Stored>): (r: seq<RequestSummary>)
    ensures |r| == |entries|
    ensures forall i :: 0 <= i < |r| ==> r[i] == Summarize(entries[i].record)
  {
    seq(|entries|, i requires 0 <= i < |entries| => Summarize(entries[i].record))
  }

  /** `getRequestList`: [] for an unknown session, else one summary per stored
      request, sorted by timestamp. */
  function GetRequestList(store: Store, sessionId: string): (r: seq<RequestSummary>)
    ensures sessionId !in store ==> r == []
    ensures sessionId in store ==> |r| == |store[sessionId].entries|
  {
    if sessionId in store then SortByTimestamp(Summaries(store[sessionId].entries)) else []
  }

  /** The list is ordered by timestamp; requests with equal timestamps keep
      the session's insertion order. */
  lemma GetRequestListLaw(store: Store, sessionId: string)
    requires sessionId in store
    ensures SortedByTime(GetRequestList(store, sessionId))
    ensures forall t :: AtTime(GetRequestList(store, sessionId), t) == AtTime(Summaries(store[sessionId].entries), t)
  {
    SortByTimestampLaw(Summaries(store[sessionId].entries));
  }

  /** The session built from a grouping: one parsed request per key, in key
      order. Each request reads the clock on its own, so `now(k)` is the
      reading taken while request `k` is reconstructed. */
  function BuildSession(g: Grouped, decodeJson: string -> Option<Json>, now: string -> int): (s: Session)
    requires ValidGrouping(g)
    ensures |s.entries| == |g.order|
    ensures forall i :: 0 <= i < |s.entries| ==> s.entries[i].reqId == g.order[i]
  {
    Session(seq(|g.order|, i requires 0 <= i < |g.order| =>
      Stored(g.order[i], ParseRequestEntries(g.order[i], g.groups[g.order[i]], decodeJson, now(g.order[i])))))
  }

  /** `parseLogFile`: decodes the text, groups it, reconstructs every request
      and stores the session under `sessionId`. A line that decodes to `null`
      makes the grouping throw, and the store is left as it was. */
  function ParseLogFile(store: Store, sessionId: string, content: string,
                        decodeLine: string -> Option<Value>, decodeJson: string -> Option<Json>, now: string -> int)
    : (r: Completion<Store>)
    ensures r.Normal? ==> sessionId in r.value && r.value.Keys == store.Keys + {sessionId}
    ensures r.Normal? ==> forall s :: s in store && s != sessionId ==> r.value[s] == store[s]
  {
    var values := ParseJsonl(content, decodeLine);
    match GroupValues(values)
    case TypeError => TypeError
    case Normal(g) =>
      GroupValuesMeaning(values);
      Normal(store[sessionId := BuildSession(g, decodeJson, now)])
  }

  /** The session built from a grouping stores, under each key, the
      reconstruction of that key's group, and nothing under other ids. */
  lemma BuildSessionFind(g: Grouped, decodeJson: string -> Option<Json>, now: string -> int, k: string)
    requires ValidGrouping(g)
    ensures Find(BuildSession(g, decodeJson, now).entries, k) ==
      if k in g.groups then Some(ParseRequestEntries(k, g.groups[k], decodeJson, now(k))) else None
  {
    var session := BuildSession(g, decodeJson, now);
    FindMeaning(session.entries, k);
    if k in g.groups {
      var i :| 0 <= i < |g.order| && g.order[i] == k;
      assert session.entries[i].reqId == k;
    }
  }

  /** After a successful upload, the details of request `k` in the new session
      are the reconstruction of exactly the decoded entries whose `reqId` is
      `k`, and null for every id that no entry carries. */
  lemma ParseLogFileLookup(store: Store, sessionId: string, content: string,
                           decodeLine: string -> Option<Value>, decodeJson: string -> Option<Json>, now: string -> int, k: string)
    requires ParseLogFile(store, sessionId, content, decodeLine, decodeJson, now).Normal?
    ensures var st := ParseLogFile(store, sessionId, content, decodeLine, decodeJson, now).value;
      var es := Entries(ParseJsonl(content, decodeLine));
      && (k != "" && |SelectReq(es, k)| > 0 ==>
            GetRequestDetails(st, sessionId, k) == Some(ParseRequestEntries(k, SelectReq(es, k), decodeJson, now(k))))
      && (k == "" || |SelectReq(es, k)| == 0 ==> GetRequestDetails(st, sessionId, k).None?)
  {
    var values := ParseJsonl(content, decodeLine);
    GroupValuesMeaning(values);
    GroupByRequestLaw(Entries(values));
    BuildSessionFind(GroupByRequest(Entries(values)), decodeJson, now, k);
  }

  /** After a successful upload, the new session lists one summary per
      distinct truthy `reqId`. */
  lemma ParseLogFileListSize(store: Store, sessionId: string, content: string,
                             decodeLine: string -> Option<Value>, decodeJson: string -> Option<Json>, now: string -> int)
    requires ParseLogFile(store, sessionId, content, decodeLine, decodeJson, now).Normal?
    ensures var st := ParseLogFile(store, sessionId, content, decodeLine, decodeJson, now).value;
      |GetRequestList(st, sessionId)| == |GroupByRequest(Entries(ParseJsonl(content, decodeLine))).order|
  {
    GroupValuesMeaning(ParseJsonl(content, decodeLine));
  }

  /** The upload fails exactly when some line decodes to `null`. */
  lemma ParseLogFileFails(store: Store, sessionId: string, content: string,
                          decodeLine: string -> Option<Value>, decodeJson: string -> Option<Json>, now: string -> int)
    ensures var values := ParseJsonl(content, decodeLine);
      ParseLogFile(store, sessionId, content, decodeLine, decodeJson, now).TypeError? <==>
        exists i :: 0 <= i < |values| && values[i].NullValue?
  {
    GroupValuesMeaning(ParseJsonl(content, decodeLine));
  }
}

=== FILE: request_details.dfy ===
/** The pure helpers of the request-details view: the short type label shown
    for a tool parameter's JSON schema, and the text truncation applied to
    long content and descriptions. */
module RequestDetails {
  import opened Js

  // ---------------------------------------------------------------------
  // getSchemaType
  // ---------------------------------------------------------------------

  const AnyType := "any"
  const EnumType := "enum"
  const UnionType := "union"
  const ArrayType := "array"
  const ArraySuffix := "[]"

  /** The property `key` of an object, together with the proof that it is a
      structurally smaller value. */
  function Property(prop: Json, key: string): (r: Option<Json>)
    ensures r == Get(prop, key)
    ensures r.Some? ==> r.value < prop
  {
    if prop.JObj? && FieldIndex(prop.fields, key) >= 0 then
      var f := prop.fields[FieldIndex(prop.fields, key)];
      assert f.value < f;
      Some(f.value)
    else None
  }

  /** `getSchemaType`: a falsy schema is `any`; a truthy `type` wins, except
      that an array with truthy `items` becomes the item label followed by
      `[]`; otherwise `enum`, then `union` (for `oneOf` or `anyOf`), then `any`.
      A truthy non-array `type` is returned as it is, whatever JSON value it
      holds, and the item label is converted to text as a template literal does. */
  function GetSchemaType(prop: Json): (r: Json)
    ensures !Truthy(prop) ==> r == JStr(AnyType)
    ensures r.JStr? || (Present(Get(prop, "type")) && r == Get(prop, "type").value)
    decreases prop
  {
    if !Truthy(prop) then JStr(AnyType)
    else
      var t := Property(prop, "type");
      if Present(t) then
        var items := Property(prop, "items");
        if t.value == JStr(ArrayType) && Present(items) then JStr(JsString(GetSchemaType(items.value)) + ArraySuffix)
        else t.value
      else if Present(Property(prop, "enum")) then JStr(EnumType)
      else if Present(Property(prop, "oneOf")) || Present(Property(prop, "anyOf")) then JStr(UnionType)
      else JStr(AnyType)
  }

  /** `n` copies of `s`. */
  function Repeat(s: string, n: nat): string {
    if n == 0 then "" else Repeat(s, n - 1) + s
  }

  /** `{type: "array", items: ...}` nested `n` times around `{type: t}`. */
  function ArraySchema(n: nat, t: string): Json {
    if n == 0 then JObj([Field("type", JStr(t))])
    else JObj([Field("type", JStr(ArrayType)), Field("items", ArraySchema(n - 1, t))])
  }

  /** The two properties of an `ArraySchema` level. */
  lemma ArraySchemaFields(n: nat, t: string)
    requires n > 0
    ensures Get(ArraySchema(n, t), "type") == Some(JStr(ArrayType))
    ensures Get(ArraySchema(n, t), "items") == Some(ArraySchema(n - 1, t))
  {
    var fields := [Field("type", JStr(ArrayType)), Field("items", ArraySchema(n - 1, t))];
    assert ArraySchema(n, t) == JObj(fields);
    assert FieldIndex(fields, "items") == 1;
    assert fields[..1] == [Field("type", JStr(ArrayType))];
    assert FieldIndex(fields, "type") == 0;
  }

  /** An array schema with truthy `items` is labelled by its items' label. */
  lemma ArrayLabelStep(prop: Json, items: Json)
    requires Get(prop, "type") == Some(JStr(ArrayType)) && Get(prop, "items") == Some(items) && Truthy(items)
    ensures GetSchemaType(prop) == JStr(JsString(GetSchemaType(items)) + ArraySuffix)
  {
  }

  /** An array nested `n` deep around a named type is labelled with the type
      name followed by `n` suffixes `[]`. */
  lemma {:induction false} ArraySchemaLabel(n: nat, t: string)
    requires t != ""
    ensures GetSchemaType(ArraySchema(n, t)) == JStr(t + Repeat(ArraySuffix, n))
  {
    if n == 0 {
      assert Get(ArraySchema(0, t), "type") == Some(JStr(t));
    } else {
      ArraySchemaLabel(n - 1, t);
      ArraySchemaFields(n, t);
      ArrayLabelStep(ArraySchema(n, t), ArraySchema(n - 1, t));
      assert JsString(JStr(t + Repeat(ArraySuffix, n - 1))) == t + Repeat(ArraySuffix, n - 1);
      assert t + Repeat(ArraySuffix, n) == (t + Repeat(ArraySuffix, n - 1)) + ArraySuffix;
    }
  }

  /** A schema with a truthy `type` is labelled by that type, unless it is an
      `array` with truthy `items`. */
  lemma DeclaredTypeWins(prop: Json)
    requires Present(Get(prop, "type"))
    requires !(Get(prop, "type").value == JStr(ArrayType) && Present(Get(prop, "items")))
    ensures GetSchemaType(prop) == Get(prop, "type").value
  {
  }

  /** Without a truthy `type`, the label is decided by `enum`, then by
      `oneOf`/`anyOf`, and is `any` when none is present. */
  lemma UntypedSchemaLabel(prop: Json)
    requires !Present(Get(prop, "type"))
    ensures GetSchemaType(prop) ==
      if !Truthy(prop) then JStr(AnyType)
      else if Present(Get(prop, "enum")) then JStr(EnumType)
      else if Present(Get(prop, "oneOf")) || Present(Get(prop, "anyOf")) then JStr(UnionType)
      else JStr(AnyType)
  {
  }

  // ---------------------------------------------------------------------
  // truncateText
  // ---------------------------------------------------------------------

  const Ellipsis := "..."

  /** `substring(0, maxLength)`: a negative end is clamped to 0. */
  function Clamp(maxLength: int, len: nat): (n: nat)
    ensures n <= len
  {
    if maxLength < 0 then 0 else if maxLength > len then len else maxLength
  }

  /** `truncateText`: the text unchanged when empty or at most `maxLength`
      long, otherwise its first `maxLength` characters followed by `...`. */
  function TruncateText(text: string, maxLength: int): (r: string)
    ensures text == "" || |text| <= maxLength ==> r == text
    ensures text != "" && |text| > maxLength ==> |r| == Clamp(maxLength, |text|) + |Ellipsis|
  {
    if text == "" || |text| <= maxLength then text
    else text[..Clamp(maxLength, |text|)] + Ellipsis
  }

  /** Every result starts with the first `maxLength` characters of the text;
      a result that differs from the text continues with exactly `...` after
      them, and is at most three characters longer than `maxLength`. */
  lemma TruncateTextBounds(text: string, maxLength: int)
    ensures var r := TruncateText(text, maxLength);
      var k := Clamp(maxLength, |text|);
      && k <= |r| && r[..k] == text[..k]
      && (r != text ==> r[k..] == Ellipsis)
      && (r != text ==> |r| <= (if maxLength < 0 then 0 else maxLength) + |Ellipsis| && |r| > maxLength)
  {
  }

  /** Truncating twice with the same limit gives the same text as truncating once. */
  lemma TruncateTextIdempotent(text: string, maxLength: int)
    ensures TruncateText(TruncateText(text, maxLength), maxLength) == TruncateText(text, maxLength)
  {
    var r := TruncateText(text, maxLength);
    if r != text {
      var k := Clamp(maxLength, |text|);
      assert r[..k] == text[..k];
      assert Clamp(maxLength, |r|) == k;
      assert r[..k] + Ellipsis == r;
    }
  }
}

=== FILE: response_aggregator.dfy ===
/** The streaming-chunk merge: a left fold over the streamed chunks of one
    request that rebuilds a single OpenAI chat-completion object, plus the two
    legacy helpers built on the same chunk stream. */
module ResponseAggregator {
  import opened Js
  import opened Seqs
  import opened LogEntries

  // ---------------------------------------------------------------------
  // The merged response (the output shape)
  // ---------------------------------------------------------------------

  datatype FunctionCall = FunctionCall(name: Option<string>, arguments: string)

  /** A merged tool call; `kind` is the JSON property `type` and `fn` the
      property `function` (both names are Dafny keywords). */
  datatype ToolCall = ToolCall(id: Option<string>, kind: Option<string>, fn: FunctionCall)

  /** `toolCalls` is `None` when the `tool_calls` key is omitted. */
  datatype Message = Message(role: string, content: Option<string>, toolCalls: Option<seq<ToolCall>>)

  datatype ResponseChoice = ResponseChoice(index: int, message: Message, finishReason: Option<string>)

  datatype PromptTokensDetails = PromptTokensDetails(cachedTokens: int)

  datatype Usage = Usage(
    promptTokens: int,
    completionTokens: int,
    totalTokens: int,
    promptTokensDetails: Option<PromptTokensDetails>)

  /** `objectType` is the JSON property `object`. */
  datatype OpenAIResponse = OpenAIResponse(
    id: string,
    objectType: string,
    created: int,
    model: string,
    choices: seq<ResponseChoice>,
    usage: Option<Usage>)

  const ChatCompletionObject := "chat.completion"
  const Unknown := "unknown"
  const DefaultRole := "assistant"

  // ---------------------------------------------------------------------
  // What the merge reads from one parsed chunk
  // ---------------------------------------------------------------------

  /** `arguments` is the text `+=` appends: "" when the property is falsy. */
  datatype FunctionDelta = FunctionDelta(name: Option<string>, arguments: string)

  /** One element of `delta.tool_calls`; `kind` and `fn` as in `ToolCall`. */
  datatype ToolCallDelta = ToolCallDelta(
    index: Option<int>,
    id: Option<string>,
    kind: Option<string>,
    fn: Option<FunctionDelta>)

  /** `choices[0].delta`. `content` is the text `+=` appends. `toolCalls` are
      the elements processed before the first null element; `aborted` records
      that such a null element exists, whose read throws and ends the chunk. */
  datatype Delta = Delta(role: Option<string>, content: string, toolCalls: seq<ToolCallDelta>, aborted: bool)

  /** What `choices[0]` yields: nothing (no non-empty array), a null element
      (reading `.delta` from it throws), or a choice. */
  datatype ChoiceView =
    | NoChoice
    | NullChoice
    | FirstChoice(delta: Option<Delta>, finishReason: Option<string>)

  datatype CachedDelta = CachedDelta(cachedTokens: Option<int>)

  /** A truthy `usage` property; `details` is a truthy `prompt_tokens_details`. */
  datatype UsageDelta = UsageDelta(
    promptTokens: Option<int>,
    completionTokens: Option<int>,
    totalTokens: Option<int>,
    details: Option<CachedDelta>)

  datatype Chunk = Chunk(
    id: Option<string>,
    created: Option<int>,
    model: Option<string>,
    choice: ChoiceView,
    usage: Option<UsageDelta>)

  /** Number of leading non-null elements. */
  function UntilNull(items: seq<Json>): (n: nat)
    ensures n <= |items|
    ensures forall i :: 0 <= i < n ==> !items[i].JNull?
    ensures n < |items| ==> items[n].JNull?
  {
    if |items| == 0 || items[0].JNull? then 0 else 1 + UntilNull(items[1..])
  }

  function ToolCallDeltaOf(j: Json): ToolCallDelta {
    var f := Get(j, "function");
    ToolCallDelta(
      GetNum(j, "index"),
      GetStr(j, "id"),
      GetStr(j, "type"),
      if Present(f) then Some(FunctionDelta(GetStr(f.value, "name"), Appended(Get(f.value, "arguments"))))
      else None)
  }

  /** `choice.delta`: optional chaining makes a missing or null delta read as nothing. */
  function DeltaOf(d: Option<Json>): Option<Delta> {
    if d.None? || d.value.JNull? then None
    else
      var tc := Get(d.value, "tool_calls");
      var items := if tc.Some? && tc.value.JArr? then tc.value.items else [];
      var n := UntilNull(items);
      Some(Delta(
        GetStr(d.value, "role"),
        Appended(Get(d.value, "content")),
        seq(n, i requires 0 <= i < n => ToolCallDeltaOf(items[i])),
        n < |items|))
  }

  /** `choice = parsed.choices[0]`: reading `delta` on a null or undefined
      choice throws, which the loop's catch turns into skipping the rest of
      the chunk. */
  function ChoiceAt(choice: Option<Json>): ChoiceView {
    match choice
    case None => NullChoice
    case Some(c) =>
      if c.JNull? then NullChoice
      else FirstChoice(DeltaOf(Get(c, "delta")), GetStr(c, "finish_reason"))
  }

  /** `if (parsed.choices && parsed.choices.length > 0)`: an array, a
      non-empty string (whose first element is a one-character string) and an
      object with a positive numeric `length` (indexed by its key "0") all
      pass the test; every other value has no choice. */
  function ChoiceOf(parsed: Json): ChoiceView {
    match Get(parsed, "choices")
    case Some(JArr(items)) =>
      if |items| == 0 then NoChoice else ChoiceAt(Some(items[0]))
    case Some(JStr(s)) =>
      if |s| == 0 then NoChoice else ChoiceAt(Some(JStr(s[..1])))
    case Some(JObj(fields)) =>
      if GetNum(JObj(fields), "length").GetOr(0) > 0 then ChoiceAt(Get(JObj(fields), "0")) else NoChoice
    case _ => NoChoice
  }

  function UsageOf(parsed: Json): Option<UsageDelta> {
    var u := Get(parsed, "usage");
    if !Present(u) then None
    else
      var d := Get(u.value, "prompt_tokens_details");
      Some(UsageDelta(
        GetNum(u.value, "prompt_tokens"),
        GetNum(u.value, "completion_tokens"),
        GetNum(u.value, "total_tokens"),
        if Present(d) then Some(CachedDelta(GetNum(d.value, "cached_tokens"))) else None))
  }

  /** The chunk a parsed payload stands for; reading a property of `null` throws. */
  function ChunkOf(parsed: Json): Option<Chunk> {
    if parsed.JNull? then None
    else Some(Chunk(GetStr(parsed, "id"), GetNum(parsed, "created"), GetStr(parsed, "model"),
                    ChoiceOf(parsed), UsageOf(parsed)))
  }

  /** The payload of a received-data log entry: a truthy `data` (decoded when it
      is a string), else a truthy `response`; `None` means the entry is skipped. */
  function ParseChunk(e: LogEntry, decodeJson: string -> Option<Json>): (r: Option<Chunk>)
    ensures !Present(e.data) && !Present(e.response) ==> r.None?
  {
    if Present(e.data) then
      match e.data.value
      case JStr(s) =>
        (match decodeJson(s)
         case Some(p) => ChunkOf(p)
         case None => None)
      case other => ChunkOf(other)
    else if Present(e.response) then ChunkOf(e.response.value)
    else None
  }

  /** The chunks of `entries` that are not skipped, in order. */
  function ParsedChunks(entries: seq<LogEntry>, decodeJson: string -> Option<Json>): (r: seq<Chunk>)
    ensures |r| <= |entries|
  {
    if |entries| == 0 then []
    else
      var rest := ParsedChunks(entries[..|entries| - 1], decodeJson);
      match ParseChunk(entries[|entries| - 1], decodeJson)
      case Some(c) => rest + [c]
      case None => rest
  }

  // ---------------------------------------------------------------------
  // The fold
  // ---------------------------------------------------------------------

  /** The fold state: the loop's local variables. */
  datatype Builder = Builder(
    id: string,
    created: int,
    model: string,
    finishReason: Option<string>,
    role: string,
    content: string,
    usage: Option<Usage>,
    toolCalls: map<int, ToolCall>)

  const Start := Builder("", 0, "", None, DefaultRole, "", None, map[])

  const EmptyToolCall := ToolCall(None, None, FunctionCall(None, ""))

  /** `toolCallDelta.index ?? 0`. */
  function StreamIndex(d: ToolCallDelta): int {
    d.index.GetOr(0)
  }

  /** One tool-call delta (src/logs/utils/response-aggregator.util.ts:115-129):
      id, type and name are overwritten by truthy values, arguments are appended. */
  function MergeInto(t: ToolCall, d: ToolCallDelta): ToolCall {
    var t1 := t.(id := if Text(d.id) != "" then d.id else t.id,
                 kind := if Text(d.kind) != "" then d.kind else t.kind);
    match d.fn
    case None => t1
    case Some(f) =>
      t1.(fn := FunctionCall(if Text(f.name) != "" then f.name else t1.fn.name,
                             t1.fn.arguments + f.arguments))
  }

  /** Merges one tool-call delta into the entry for its stream index,
      creating an empty entry on first sight of the index. */
  function MergeToolCallDelta(m: map<int, ToolCall>, d: ToolCallDelta): (r: map<int, ToolCall>)
    ensures r.Keys == m.Keys + {StreamIndex(d)}
  {
    var k := StreamIndex(d);
    m[k := MergeInto(if k in m then m[k] else EmptyToolCall, d)]
  }

  function MergeToolCallDeltas(m: map<int, ToolCall>, ds: seq<ToolCallDelta>): map<int, ToolCall> {
    if |ds| == 0 then m
    else MergeToolCallDelta(MergeToolCallDeltas(m, ds[..|ds| - 1]), ds[|ds| - 1])
  }

  function ToUsage(u: UsageDelta): Usage {
    Usage(Num(u.promptTokens), Num(u.completionTokens), Num(u.totalTokens),
          match u.details
          case None => None
          case Some(cd) => Some(PromptTokensDetails(Num(cd.cachedTokens))))
  }

  function AbsorbUsage(b: Builder, u: Option<UsageDelta>): Builder {
    if u.Some? then b.(usage := Some(ToUsage(u.value))) else b
  }

  function AbsorbDelta(b: Builder, d: Delta): Builder {
    b.(role := if Text(d.role) != "" then Text(d.role) else b.role,
       content := b.content + d.content,
       toolCalls := MergeToolCallDeltas(b.toolCalls, d.toolCalls))
  }

  /** One loop iteration on a chunk that was not skipped. */
  function Absorb(b: Builder, c: Chunk): Builder {
    var b1 := b.(id := if b.id == "" && Text(c.id) != "" then Text(c.id) else b.id,
                 created := if b.created == 0 && Num(c.created) != 0 then Num(c.created) else b.created,
                 model := if b.model == "" && Text(c.model) != "" then Text(c.model) else b.model);
    match c.choice
    case NoChoice => AbsorbUsage(b1, c.usage)
    case NullChoice => b1
    case FirstChoice(delta, finish) =>
      var b2 := if delta.Some? then AbsorbDelta(b1, delta.value) else b1;
      if delta.Some? && delta.value.aborted then b2
      else AbsorbUsage(b2.(finishReason := if Text(finish) != "" then finish else b2.finishReason), c.usage)
  }

  function AbsorbAll(cs: seq<Chunk>): Builder {
    if |cs| == 0 then Start else Absorb(AbsorbAll(cs[..|cs| - 1]), cs[|cs| - 1])
  }

  // ---------------------------------------------------------------------
  // Finalisation
  // ---------------------------------------------------------------------

  lemma HasElement(s: set<int>)
    ensures s == {} || exists y :: y in s
  {
    if forall y :: y !in s {
      assert s == {};
    }
  }

  lemma {:induction false} MinExists(s: set<int>)
    requires s != {}
    ensures exists k :: k in s && forall j :: j in s ==> k <= j
    decreases |s|
  {
    HasElement(s);
    var x :| x in s;
    var rest := s - {x};
    if rest == {} {
      assert s == {x};
    } else {
      MinExists(rest);
      var m :| m in rest && forall j :: j in rest ==> m <= j;
      var k := if x < m then x else m;
      forall j | j in s ensures k <= j {
        if j != x {
          assert j in rest;
        }
      }
      assert k in s;
    }
  }

  function MinKey(s: set<int>): (k: int)
    requires s != {}
    ensures k in s && forall j :: j in s ==> k <= j
  {
    MinExists(s);
    var k :| k in s && forall j :: j in s ==> k <= j; k
  }

  /** The keys of a tool-call map in ascending order. */
  function SortedKeys(s: set<int>): seq<int>
    decreases |s|
  {
    if s == {} then []
    else
      var k := MinKey(s);
      [k] + SortedKeys(s - {k})
  }

  /** `SortedKeys` lists every key, and nothing else. */
  lemma {:induction false} SortedKeysMembers(s: set<int>)
    ensures |SortedKeys(s)| == |s|
    ensures forall i :: 0 <= i < |SortedKeys(s)| ==> SortedKeys(s)[i] in s
    ensures forall k :: k in s ==> k in SortedKeys(s)
    decreases |s|
  {
    if s != {} {
      var k := MinKey(s);
      var rest := SortedKeys(s - {k});
      SortedKeysMembers(s - {k});
      assert SortedKeys(s) == [k] + rest;
      forall x | x in s ensures x in SortedKeys(s) {
        if x != k {
          assert x in s - {k};
        }
      }
    }
  }

  /** `SortedKeys` is strictly increasing, so it lists each key once. */
  lemma {:induction false} SortedKeysIncreasing(s: set<int>)
    ensures forall i, j :: 0 <= i < j < |SortedKeys(s)| ==> SortedKeys(s)[i] < SortedKeys(s)[j]
    decreases |s|
  {
    if s != {} {
      var k := MinKey(s);
      var rest := SortedKeys(s - {k});
      var r := [k] + rest;
      SortedKeysMembers(s - {k});
      SortedKeysIncreasing(s - {k});
      assert SortedKeys(s) == r;
      forall i, j | 0 <= i < j < |r| ensures r[i] < r[j] {
        assert r[j] == rest[j - 1];
        if i > 0 {
          assert r[i] == rest[i - 1];
        }
      }
    }
  }

  /** `Array.from(map.entries()).sort((a, b) => a[0] - b[0]).map(e => e[1])`. */
  function ToolCallsByIndex(m: map<int, ToolCall>): (r: seq<ToolCall>)
    ensures |r| == |SortedKeys(m.Keys)| == |m|
    ensures forall i :: 0 <= i < |r| ==> SortedKeys(m.Keys)[i] in m && r[i] == m[SortedKeys(m.Keys)[i]]
  {
    var keys := SortedKeys(m.Keys);
    SortedKeysMembers(m.Keys);
    seq(|keys|, i requires 0 <= i < |keys| => m[keys[i]])
  }

  /** Finalisation (src/logs/utils/response-aggregator.util.ts:158-189): null
      when nothing was learned, otherwise the response with its defaults; `now`
      stands for `Date.now()`. */
  function Finalize(b: Builder, now: int): (r: Option<OpenAIResponse>)
    ensures r.Some? ==> r.value.objectType == ChatCompletionObject && |r.value.choices| == 1
                        && r.value.choices[0].index == 0
  {
    if b.id == "" && b.content == "" && |b.toolCalls| == 0 then None
    else
      var calls := ToolCallsByIndex(b.toolCalls);
      Some(OpenAIResponse(
        if b.id == "" then Unknown else b.id,
        ChatCompletionObject,
        if b.created == 0 then now else b.created,
        if b.model == "" then Unknown else b.model,
        [ResponseChoice(
           0,
           Message(b.role, if b.content == "" then None else Some(b.content),
                   if |calls| > 0 then Some(calls) else None),
           b.finishReason)],
        b.usage))
  }

  /** `mergeChunksToResponse`. */
  function MergeChunksToResponse(chunks: seq<LogEntry>, decodeJson: string -> Option<Json>, now: int)
    : (r: Option<OpenAIResponse>)
    ensures |chunks| == 0 ==> r.None?
  {
    Finalize(AbsorbAll(ParsedChunks(chunks, decodeJson)), now)
  }

  /** `aggregateChunks`: the merged content, or "" when there is none. */
  function AggregateChunks(chunks: seq<LogEntry>, decodeJson: string -> Option<Json>, now: int): string {
    match MergeChunksToResponse(chunks, decodeJson, now)
    case None => ""
    case Some(resp) => resp.choices[0].message.content.GetOr("")
  }

  // ---------------------------------------------------------------------
  // parseSseChunks
  // ---------------------------------------------------------------------

  const SsePrefix := "data: "

  /** The text one SSE line contributes: a `data: ` line whose JSON is a
      `content_block_delta` event with a truthy `delta.text`. */
  function SseLineText(line: string, decodeJson: string -> Option<Json>): string {
    if |line| >= |SsePrefix| && line[..|SsePrefix|] == SsePrefix then
      match decodeJson(line[|SsePrefix|..])
      case None => ""
      case Some(parsed) =>
        if parsed.JNull? then ""
        else if Get(parsed, "type") == Some(JStr("content_block_delta")) then
          var delta := Get(parsed, "delta");
          if delta.Some? && !delta.value.JNull? then Appended(Get(delta.value, "text")) else ""
        else ""
    else ""
  }

  function SseText(lines: seq<string>, decodeJson: string -> Option<Json>): string {
    if |lines| == 0 then ""
    else SseText(lines[..|lines| - 1], decodeJson) + SseLineText(lines[|lines| - 1], decodeJson)
  }

  /** What one entry adds: the text of a `send data` entry with a truthy
      string `data`; `data.split` on a truthy non-string throws a TypeError
      that nothing catches. */
  function SseEntry(e: LogEntry, decodeJson: string -> Option<Json>): Completion<string> {
    if HasKind(e, SendDataKind) && Present(e.data) then
      match e.data.value
      case JStr(s) => Normal(SseText(SplitLines(s), decodeJson))
      case _ => TypeError
    else Normal("")
  }

  /** `parseSseChunks`: the entries' texts in order, or the first TypeError. */
  function ParseSseChunks(chunks: seq<LogEntry>, decodeJson: string -> Option<Json>): Completion<string> {
    if |chunks| == 0 then Normal("")
    else
      match ParseSseChunks(chunks[..|chunks| - 1], decodeJson)
      case TypeError => TypeError
      case Normal(text) =>
        match SseEntry(chunks[|chunks| - 1], decodeJson)
        case TypeError => TypeError
        case Normal(more) => Normal(text + more)
  }
}

=== FILE: response_aggregator_laws.dfy ===
/** What the chunk merge computes, stated against reference definitions over
    the chunk stream: first-wins and last-wins fields, content and argument
    concatenation, the tool-call index law, and when the result is null. */
module ResponseAggregatorLaws {
  import opened Js
  import opened Seqs
  import opened LogEntries
  import opened ResponseAggregator

  // ---------------------------------------------------------------------
  // What each chunk contributes
  // ---------------------------------------------------------------------

  /** The chunk's statements after the tool-call loop (finish reason, usage) run. */
  predicate ReachesEnd(c: Chunk) {
    match c.choice
    case NoChoice => true
    case NullChoice => false
    case FirstChoice(delta, _) => !(delta.Some? && delta.value.aborted)
  }

  function RoleDelta(c: Chunk): string {
    match c.choice
    case FirstChoice(Some(d), _) => Text(d.role)
    case _ => ""
  }

  function ContentDelta(c: Chunk): string {
    match c.choice
    case FirstChoice(Some(d), _) => d.content
    case _ => ""
  }

  function ToolDeltas(c: Chunk): seq<ToolCallDelta> {
    match c.choice
    case FirstChoice(Some(d), _) => d.toolCalls
    case _ => []
  }

  function FinishDelta(c: Chunk): string {
    match c.choice
    case FirstChoice(_, f) => if ReachesEnd(c) then Text(f) else ""
    case _ => ""
  }

  function UsageDeltaOf(c: Chunk): Option<Usage> {
    if ReachesEnd(c) && c.usage.Some? then Some(ToUsage(c.usage.value)) else None
  }

  // ---------------------------------------------------------------------
  // The same contributions across a chunk stream
  // ---------------------------------------------------------------------

  function Ids(cs: seq<Chunk>): seq<string> {
    seq(|cs|, i requires 0 <= i < |cs| => Text(cs[i].id))
  }

  function Createds(cs: seq<Chunk>): seq<int> {
    seq(|cs|, i requires 0 <= i < |cs| => Num(cs[i].created))
  }

  function Models(cs: seq<Chunk>): seq<string> {
    seq(|cs|, i requires 0 <= i < |cs| => Text(cs[i].model))
  }

  function Roles(cs: seq<Chunk>): seq<string> {
    seq(|cs|, i requires 0 <= i < |cs| => RoleDelta(cs[i]))
  }

  function Contents(cs: seq<Chunk>): seq<string> {
    seq(|cs|, i requires 0 <= i < |cs| => ContentDelta(cs[i]))
  }

  function Finishes(cs: seq<Chunk>): seq<string> {
    seq(|cs|, i requires 0 <= i < |cs| => FinishDelta(cs[i]))
  }

  function Usages(cs: seq<Chunk>): seq<Option<Usage>> {
    seq(|cs|, i requires 0 <= i < |cs| => UsageDeltaOf(cs[i]))
  }

  /** Every tool-call delta of the stream, in arrival order. */
  function AllToolDeltas(cs: seq<Chunk>): seq<ToolCallDelta> {
    Concat(seq(|cs|, i requires 0 <= i < |cs| => ToolDeltas(cs[i])))
  }

  /** A string field as an optional value: "" reads as absent. */
  function AsOption(s: string): (r: Option<string>)
    ensures r.None? <==> s == ""
  {
    if s == "" then None else Some(s)
  }

  // ---------------------------------------------------------------------
  // Tool calls: a reference definition per stream index
  // ---------------------------------------------------------------------

  /** The deltas addressed to stream index `k`, in arrival order. */
  function Select(ds: seq<ToolCallDelta>, k: int): seq<ToolCallDelta> {
    if |ds| == 0 then []
    else if StreamIndex(ds[|ds| - 1]) == k then Select(ds[..|ds| - 1], k) + [ds[|ds| - 1]]
    else Select(ds[..|ds| - 1], k)
  }

  /** The stream indices the deltas mention. */
  function Indices(ds: seq<ToolCallDelta>): set<int> {
    if |ds| == 0 then {} else Indices(ds[..|ds| - 1]) + {StreamIndex(ds[|ds| - 1])}
  }

  lemma IndicesSnoc(ds: seq<ToolCallDelta>, d: ToolCallDelta)
    ensures Indices(ds + [d]) == Indices(ds) + {StreamIndex(d)}
  {
    assert (ds + [d])[..|ds|] == ds;
  }

  lemma {:induction false} IndicesMeaning(ds: seq<ToolCallDelta>, k: int)
    ensures k in Indices(ds) <==> exists i :: 0 <= i < |ds| && StreamIndex(ds[i]) == k
    decreases |ds|
  {
    if |ds| > 0 {
      var p := ds[..|ds| - 1];
      IndicesMeaning(p, k);
      if k in Indices(p) {
        var i :| 0 <= i < |p| && StreamIndex(p[i]) == k;
        assert ds[i] == p[i];
      } else if k == StreamIndex(ds[|ds| - 1]) {
      } else {
        forall i | 0 <= i < |ds| ensures StreamIndex(ds[i]) != k {
          if i < |p| {
            assert ds[i] == p[i];
          }
        }
      }
    }
  }

  /** No delta is addressed to `k` exactly when `k` is not a mentioned index. */
  lemma {:induction false} SelectIsEmpty(ds: seq<ToolCallDelta>, k: int)
    ensures |Select(ds, k)| == 0 <==> k !in Indices(ds)
    decreases |ds|
  {
    if |ds| > 0 {
      SelectIsEmpty(ds[..|ds| - 1], k);
    }
  }

  function DeltaIds(sel: seq<ToolCallDelta>): seq<string> {
    seq(|sel|, i requires 0 <= i < |sel| => Text(sel[i].id))
  }

  function DeltaKinds(sel: seq<ToolCallDelta>): seq<string> {
    seq(|sel|, i requires 0 <= i < |sel| => Text(sel[i].kind))
  }

  function DeltaNames(sel: seq<ToolCallDelta>): seq<string> {
    seq(|sel|, i requires 0 <= i < |sel| => NameOf(sel[i]))
  }

  function DeltaArguments(sel: seq<ToolCallDelta>): seq<string> {
    seq(|sel|, i requires 0 <= i < |sel| => ArgumentsOf(sel[i]))
  }

  /** The tool call that the deltas of one index describe: id, type and name
      are the last truthy values, arguments the in-order concatenation. */
  function ExpectedToolCall(sel: seq<ToolCallDelta>): ToolCall {
    ToolCall(
      AsOption(LastTruthy(DeltaIds(sel), "", "")),
      AsOption(LastTruthy(DeltaKinds(sel), "", "")),
      FunctionCall(AsOption(LastTruthy(DeltaNames(sel), "", "")), Flatten(DeltaArguments(sel))))
  }

  lemma ExpectedToolCallEmpty()
    ensures ExpectedToolCall([]) == EmptyToolCall
  {
  }

  function NameOf(d: ToolCallDelta): string {
    if d.fn.Some? then Text(d.fn.value.name) else ""
  }

  function ArgumentsOf(d: ToolCallDelta): string {
    if d.fn.Some? then d.fn.value.arguments else ""
  }

  lemma DeltaViewsSnoc(sel: seq<ToolCallDelta>, d: ToolCallDelta)
    ensures DeltaIds(sel + [d]) == DeltaIds(sel) + [Text(d.id)]
    ensures DeltaKinds(sel + [d]) == DeltaKinds(sel) + [Text(d.kind)]
    ensures DeltaNames(sel + [d]) == DeltaNames(sel) + [NameOf(d)]
    ensures DeltaArguments(sel + [d]) == DeltaArguments(sel) + [ArgumentsOf(d)]
  {
  }

  /** Merging one more delta into the expected entry gives the expected entry
      of the longer selection. */
  lemma ExpectedToolCallStep(sel: seq<ToolCallDelta>, d: ToolCallDelta)
    ensures MergeInto(ExpectedToolCall(sel), d) == ExpectedToolCall(sel + [d])
  {
    DeltaViewsSnoc(sel, d);
    LastTruthySnoc(DeltaIds(sel), Text(d.id), "", "");
    LastTruthySnoc(DeltaKinds(sel), Text(d.kind), "", "");
    LastTruthySnoc(DeltaNames(sel), NameOf(d), "", "");
    FlattenSnoc(DeltaArguments(sel), ArgumentsOf(d));
  }

  lemma {:induction false} MergeToolCallDeltasAppend(m: map<int, ToolCall>, a: seq<ToolCallDelta>, b: seq<ToolCallDelta>)
    ensures MergeToolCallDeltas(m, a + b) == MergeToolCallDeltas(MergeToolCallDeltas(m, a), b)
    decreases |b|
  {
    if |b| == 0 {
      assert a + b == a;
    } else {
      var q := b[..|b| - 1];
      assert a + b == (a + q) + [b[|b| - 1]];
      assert (a + b)[..|a + b| - 1] == a + q;
      MergeToolCallDeltasAppend(m, a, q);
    }
  }

  /** The tool-call map after merging `ds` from an empty map: one entry per
      stream index mentioned, and each entry is determined by the deltas of
      its own index alone. */
  lemma {:induction false} ToolCallMapLaw(ds: seq<ToolCallDelta>)
    ensures MergeToolCallDeltas(map[], ds).Keys == Indices(ds)
    ensures forall k :: k in Indices(ds) ==> MergeToolCallDeltas(map[], ds)[k] == ExpectedToolCall(Select(ds, k))
    decreases |ds|
  {
    if |ds| > 0 {
      var p := ds[..|ds| - 1];
      var d := ds[|ds| - 1];
      ToolCallMapLaw(p);
      assert ds == p + [d];
      IndicesSnoc(p, d);
      forall k | k in Indices(ds)
        ensures MergeToolCallDeltas(map[], ds)[k] == ExpectedToolCall(Select(ds, k))
      {
        ToolCallMapStep(p, d, k);
      }
    }
  }

  /** The induction step of `ToolCallMapLaw` at one index. */
  lemma ToolCallMapStep(p: seq<ToolCallDelta>, d: ToolCallDelta, k: int)
    requires MergeToolCallDeltas(map[], p).Keys == Indices(p)
    requires k in Indices(p) ==> MergeToolCallDeltas(map[], p)[k] == ExpectedToolCall(Select(p, k))
    requires k in Indices(p) || k == StreamIndex(d)
    ensures k in MergeToolCallDeltas(map[], p + [d])
    ensures MergeToolCallDeltas(map[], p + [d])[k] == ExpectedToolCall(Select(p + [d], k))
  {
    var ds := p + [d];
    var m := MergeToolCallDeltas(map[], p);
    assert ds[..|ds| - 1] == p;
    assert MergeToolCallDeltas(map[], ds) == MergeToolCallDelta(m, d);
    if k == StreamIndex(d) {
      assert Select(ds, k) == Select(p, k) + [d];
      if k !in m {
        SelectIsEmpty(p, k);
        assert Select(p, k) == [];
        ExpectedToolCallEmpty();
      }
      ExpectedToolCallStep(Select(p, k), d);
    } else {
      assert Select(ds, k) == Select(p, k);
    }
  }

  /** Tool-call index law: the entry for index `k` depends only on the deltas
      addressed to `k`, however deltas of other indices interleave with them. */
  lemma InterleavingIrrelevant(ds1: seq<ToolCallDelta>, ds2: seq<ToolCallDelta>, k: int)
    requires Select(ds1, k) == Select(ds2, k)
    requires k in Indices(ds1)
    ensures k in MergeToolCallDeltas(map[], ds1) && k in MergeToolCallDeltas(map[], ds2)
    ensures MergeToolCallDeltas(map[], ds1)[k] == MergeToolCallDeltas(map[], ds2)[k]
  {
    ToolCallMapLaw(ds1);
    ToolCallMapLaw(ds2);
    SelectIsEmpty(ds1, k);
    SelectIsEmpty(ds2, k);
  }

  // ---------------------------------------------------------------------
  // The fold against the reference definitions
  // ---------------------------------------------------------------------

  /** The fold state the reference definitions predict for a chunk stream. */
  function ExpectedBuilder(cs: seq<Chunk>): Builder {
    Builder(
      FirstTruthy(Ids(cs), ""),
      FirstTruthy(Createds(cs), 0),
      FirstTruthy(Models(cs), ""),
      AsOption(LastTruthy(Finishes(cs), "", "")),
      LastTruthy(Roles(cs), "", DefaultRole),
      Flatten(Contents(cs)),
      LastSome(Usages(cs)),
      MergeToolCallDeltas(map[], AllToolDeltas(cs)))
  }

  lemma AllToolDeltasStep(cs: seq<Chunk>)
    requires |cs| > 0
    ensures AllToolDeltas(cs) == AllToolDeltas(cs[..|cs| - 1]) + ToolDeltas(cs[|cs| - 1])
  {
    var lists := seq(|cs|, i requires 0 <= i < |cs| => ToolDeltas(cs[i]));
    var p := cs[..|cs| - 1];
    assert lists[..|cs| - 1] == seq(|p|, i requires 0 <= i < |p| => ToolDeltas(p[i]));
  }

  /** One fold step, field by field, in terms of the chunk's contributions. */
  lemma AbsorbEffect(b: Builder, c: Chunk)
    ensures Absorb(b, c).id == (if b.id == "" && Text(c.id) != "" then Text(c.id) else b.id)
    ensures Absorb(b, c).created == (if b.created == 0 && Num(c.created) != 0 then Num(c.created) else b.created)
    ensures Absorb(b, c).model == (if b.model == "" && Text(c.model) != "" then Text(c.model) else b.model)
    ensures Absorb(b, c).role == (if RoleDelta(c) != "" then RoleDelta(c) else b.role)
    ensures Absorb(b, c).content == b.content + ContentDelta(c)
    ensures Absorb(b, c).finishReason == (if FinishDelta(c) != "" then Some(FinishDelta(c)) else b.finishReason)
    ensures Absorb(b, c).usage == (if UsageDeltaOf(c).Some? then UsageDeltaOf(c) else b.usage)
    ensures Absorb(b, c).toolCalls == MergeToolCallDeltas(b.toolCalls, ToolDeltas(c))
  {
    match c.choice
    case NoChoice =>
    case NullChoice =>
    case FirstChoice(delta, f) =>
      if delta.Some? && delta.value.aborted {
      } else if delta.Some? {
      } else {
      }
  }

  /** Every per-chunk view of a stream grows by the last chunk's contribution. */
  lemma ViewsSnoc(p: seq<Chunk>, c: Chunk)
    ensures Ids(p + [c]) == Ids(p) + [Text(c.id)]
    ensures Createds(p + [c]) == Createds(p) + [Num(c.created)]
    ensures Models(p + [c]) == Models(p) + [Text(c.model)]
    ensures Roles(p + [c]) == Roles(p) + [RoleDelta(c)]
    ensures Contents(p + [c]) == Contents(p) + [ContentDelta(c)]
    ensures Finishes(p + [c]) == Finishes(p) + [FinishDelta(c)]
    ensures Usages(p + [c]) == Usages(p) + [UsageDeltaOf(c)]
  {
  }

  lemma {:induction false} AbsorbAllHeader(cs: seq<Chunk>)
    ensures AbsorbAll(cs).id == FirstTruthy(Ids(cs), "")
    ensures AbsorbAll(cs).created == FirstTruthy(Createds(cs), 0)
    ensures AbsorbAll(cs).model == FirstTruthy(Models(cs), "")
    decreases |cs|
  {
    if |cs| > 0 {
      var p := cs[..|cs| - 1];
      var c := cs[|cs| - 1];
      AbsorbAllHeader(p);
      AbsorbEffect(AbsorbAll(p), c);
      assert cs == p + [c];
      ViewsSnoc(p, c);
      FirstTruthySnoc(Ids(p), Text(c.id), "");
      FirstTruthySnoc(Createds(p), Num(c.created), 0);
      FirstTruthySnoc(Models(p), Text(c.model), "");
    }
  }

  lemma {:induction false} AbsorbAllMessage(cs: seq<Chunk>)
    ensures AbsorbAll(cs).role == LastTruthy(Roles(cs), "", DefaultRole)
    ensures AbsorbAll(cs).content == Flatten(Contents(cs))
    decreases |cs|
  {
    if |cs| > 0 {
      var p := cs[..|cs| - 1];
      var c := cs[|cs| - 1];
      AbsorbAllMessage(p);
      AbsorbEffect(AbsorbAll(p), c);
      assert cs == p + [c];
      ViewsSnoc(p, c);
      LastTruthySnoc(Roles(p), RoleDelta(c), "", DefaultRole);
      FlattenSnoc(Contents(p), ContentDelta(c));
    }
  }

  lemma {:induction false} AbsorbAllFinishUsage(cs: seq<Chunk>)
    ensures AbsorbAll(cs).finishReason == AsOption(LastTruthy(Finishes(cs), "", ""))
    ensures AbsorbAll(cs).usage == LastSome(Usages(cs))
    decreases |cs|
  {
    if |cs| > 0 {
      var p := cs[..|cs| - 1];
      var c := cs[|cs| - 1];
      AbsorbAllFinishUsage(p);
      AbsorbEffect(AbsorbAll(p), c);
      assert cs == p + [c];
      ViewsSnoc(p, c);
      LastTruthySnoc(Finishes(p), FinishDelta(c), "", "");
      LastSomeSnoc(Usages(p), UsageDeltaOf(c));
    }
  }

  lemma {:induction false} AbsorbAllToolCalls(cs: seq<Chunk>)
    ensures AbsorbAll(cs).toolCalls == MergeToolCallDeltas(map[], AllToolDeltas(cs))
    decreases |cs|
  {
    if |cs| > 0 {
      var p := cs[..|cs| - 1];
      var c := cs[|cs| - 1];
      AbsorbAllToolCalls(p);
      AbsorbEffect(AbsorbAll(p), c);
      AllToolDeltasStep(cs);
      MergeToolCallDeltasAppend(map[], AllToolDeltas(p), ToolDeltas(c));
    }
  }

  /** The fold computes exactly the reference state. */
  lemma AbsorbAllIsExpected(cs: seq<Chunk>)
    ensures AbsorbAll(cs) == ExpectedBuilder(cs)
  {
    AbsorbAllHeader(cs);
    AbsorbAllMessage(cs);
    AbsorbAllFinishUsage(cs);
    AbsorbAllToolCalls(cs);
  }

  // ---------------------------------------------------------------------
  // Properties of mergeChunksToResponse
  // ---------------------------------------------------------------------

  lemma {:induction false} ParsedChunksAppend(a: seq<LogEntry>, b: seq<LogEntry>, decodeJson: string -> Option<Json>)
    ensures ParsedChunks(a + b, decodeJson) == ParsedChunks(a, decodeJson) + ParsedChunks(b, decodeJson)
    decreases |b|
  {
    if |b| == 0 {
      assert a + b == a;
    } else {
      var q := b[..|b| - 1];
      var x := b[|b| - 1];
      assert a + b == (a + q) + [x] && b == q + [x];
      ParsedChunksAppend(a, q, decodeJson);
      ParsedChunksSnoc(a + q, x, decodeJson);
      ParsedChunksSnoc(q, x, decodeJson);
    }
  }

  lemma ParsedChunksSnoc(es: seq<LogEntry>, e: LogEntry, decodeJson: string -> Option<Json>)
    ensures ParsedChunks(es + [e], decodeJson) ==
      ParsedChunks(es, decodeJson) + (match ParseChunk(e, decodeJson) case Some(c) => [c] case None => [])
  {
    assert (es + [e])[..|es|] == es;
  }

  /** A chunk with neither `data` nor `response`, or whose `data` string does
      not decode, changes nothing: the result equals that without it. */
  lemma SkippedChunkIsIgnored(a: seq<LogEntry>, e: LogEntry, b: seq<LogEntry>,
                              decodeJson: string -> Option<Json>, now: int)
    requires || (!Present(e.data) && !Present(e.response))
             || (Present(e.data) && e.data.value.JStr? && decodeJson(e.data.value.s).None?)
    ensures MergeChunksToResponse(a + [e] + b, decodeJson, now) == MergeChunksToResponse(a + b, decodeJson, now)
  {
    ParsedChunksAppend(a + [e], b, decodeJson);
    ParsedChunksAppend(a, [e], decodeJson);
    ParsedChunksAppend(a, b, decodeJson);
    assert ([] + [e])[..0] == [];
    assert ParsedChunks([e], decodeJson) == [];
  }

  /** The chunk brings no truthy id, no content and no tool-call delta. */
  predicate Uninformative(c: Chunk) {
    Text(c.id) == "" && ContentDelta(c) == "" && |ToolDeltas(c)| == 0
  }

  /** The result is null exactly when no parsed chunk brought a truthy id, a
      content delta or a tool-call delta. */
  lemma NullIffNothingLearned(chunks: seq<LogEntry>, decodeJson: string -> Option<Json>, now: int)
    ensures MergeChunksToResponse(chunks, decodeJson, now).None? <==> NothingLearnedFrom(ParsedChunks(chunks, decodeJson))
  {
    var cs := ParsedChunks(chunks, decodeJson);
    var b := AbsorbAll(cs);
    assert MergeChunksToResponse(chunks, decodeJson, now) == Finalize(b, now);
    FinalizeIsNull(b, now);
    NothingLearned(cs);
    assert MergeChunksToResponse(chunks, decodeJson, now).None? <==> Blank(b);
  }

  /** No chunk brought a truthy id, a content delta or a tool-call delta. */
  predicate NothingLearnedFrom(cs: seq<Chunk>) {
    forall i :: 0 <= i < |cs| ==> Uninformative(cs[i])
  }

  /** The fold state records nothing. */
  predicate Blank(b: Builder) {
    b.id == "" && b.content == "" && |b.toolCalls| == 0
  }

  lemma FinalizeIsNull(b: Builder, now: int)
    ensures Finalize(b, now).None? <==> Blank(b)
  {
  }

  /** The fold state records nothing exactly when every chunk is uninformative. */
  lemma NothingLearned(cs: seq<Chunk>)
    ensures Blank(AbsorbAll(cs)) <==> NothingLearnedFrom(cs)
  {
    AbsorbAllHeader(cs);
    AbsorbAllMessage(cs);
    AbsorbAllToolCalls(cs);
    NoIdIffNoIds(cs);
    NoContentIffNoDeltas(cs);
    NoToolCallsIffNoDeltas(cs);
  }

  lemma NoIdIffNoIds(cs: seq<Chunk>)
    ensures FirstTruthy(Ids(cs), "") == "" <==> forall i :: 0 <= i < |cs| ==> Text(cs[i].id) == ""
  {
    FirstTruthyMeaning(Ids(cs), "");
    assert forall i :: 0 <= i < |cs| ==> Ids(cs)[i] == Text(cs[i].id);
  }

  lemma NoContentIffNoDeltas(cs: seq<Chunk>)
    ensures Flatten(Contents(cs)) == "" <==> forall i :: 0 <= i < |cs| ==> ContentDelta(cs[i]) == ""
  {
    FlattenIsEmpty(Contents(cs));
    assert forall i :: 0 <= i < |cs| ==> Contents(cs)[i] == ContentDelta(cs[i]);
  }

  /** The fold's tool-call map is empty exactly when no chunk carried a tool-call delta. */
  lemma NoToolCallsIffNoDeltas(cs: seq<Chunk>)
    ensures |MergeToolCallDeltas(map[], AllToolDeltas(cs))| == 0 <==> forall i :: 0 <= i < |cs| ==> |ToolDeltas(cs[i])| == 0
  {
    var ds := AllToolDeltas(cs);
    var m := MergeToolCallDeltas(map[], ds);
    ToolCallKeys(ds);
    var lists := seq(|cs|, i requires 0 <= i < |cs| => ToolDeltas(cs[i]));
    assert ds == Concat(lists);
    ConcatIsEmpty(lists);
    assert |ds| == 0 <==> forall i :: 0 <= i < |cs| ==> |ToolDeltas(cs[i])| == 0 by {
      assert forall i :: 0 <= i < |cs| ==> lists[i] == ToolDeltas(cs[i]);
    }
    if |ds| > 0 {
      assert StreamIndex(ds[|ds| - 1]) in m.Keys;
    } else {
      assert m == map[];
    }
  }

  /** The key half of `ToolCallMapLaw`, on its own. */
  lemma {:induction false} ToolCallKeys(ds: seq<ToolCallDelta>)
    ensures MergeToolCallDeltas(map[], ds).Keys == Indices(ds)
    decreases |ds|
  {
    if |ds| > 0 {
      var p := ds[..|ds| - 1];
      ToolCallKeys(p);
      assert ds == p + [ds[|ds| - 1]];
      IndicesSnoc(p, ds[|ds| - 1]);
    }
  }

  /** Content law: the single choice's content is the in-order concatenation
      of the first-choice content deltas, and null when that is empty. */
  lemma ContentLaw(chunks: seq<LogEntry>, decodeJson: string -> Option<Json>, now: int)
    ensures var r := MergeChunksToResponse(chunks, decodeJson, now);
      var text := Flatten(Contents(ParsedChunks(chunks, decodeJson)));
      && (r.Some? ==> |r.value.choices| == 1 && r.value.choices[0].message.content == AsOption(text))
      && (text != "" ==> r.Some?)
      && AggregateChunks(chunks, decodeJson, now) == text
  {
    AbsorbAllIsExpected(ParsedChunks(chunks, decodeJson));
  }

  /** `id`, `created` and `model` take the first truthy value, with the
      sentinels "unknown" and `now`; `object` is always "chat.completion". */
  lemma HeaderLaw(chunks: seq<LogEntry>, decodeJson: string -> Option<Json>, now: int)
    ensures var r := MergeChunksToResponse(chunks, decodeJson, now);
      var cs := ParsedChunks(chunks, decodeJson);
      r.Some? ==>
        && r.value.objectType == ChatCompletionObject
        && r.value.id == (if FirstTruthy(Ids(cs), "") == "" then Unknown else FirstTruthy(Ids(cs), ""))
        && r.value.created == (if FirstTruthy(Createds(cs), 0) == 0 then now else FirstTruthy(Createds(cs), 0))
        && r.value.model == (if FirstTruthy(Models(cs), "") == "" then Unknown else FirstTruthy(Models(cs), ""))
  {
    AbsorbAllIsExpected(ParsedChunks(chunks, decodeJson));
  }

  /** `role` is the last truthy delta role, else "assistant"; `finish_reason`
      the last truthy value, else null; the one choice has index 0; `usage`
      comes from the last chunk that carried a truthy `usage`. */
  lemma RoleFinishUsageLaw(chunks: seq<LogEntry>, decodeJson: string -> Option<Json>, now: int)
    ensures var r := MergeChunksToResponse(chunks, decodeJson, now);
      var cs := ParsedChunks(chunks, decodeJson);
      r.Some? ==>
        && |r.value.choices| == 1
        && r.value.choices[0].index == 0
        && r.value.choices[0].message.role == LastTruthy(Roles(cs), "", DefaultRole)
        && r.value.choices[0].finishReason == AsOption(LastTruthy(Finishes(cs), "", ""))
        && r.value.usage == LastSome(Usages(cs))
  {
    AbsorbAllIsExpected(ParsedChunks(chunks, decodeJson));
  }

  /** Missing token counts become 0, and `prompt_tokens_details` appears only
      when the chunk's usage had one. */
  lemma UsageShape(u: UsageDelta)
    ensures ToUsage(u).promptTokens == Num(u.promptTokens)
    ensures ToUsage(u).completionTokens == Num(u.completionTokens)
    ensures ToUsage(u).totalTokens == Num(u.totalTokens)
    ensures ToUsage(u).promptTokensDetails.Some? <==> u.details.Some?
    ensures u.details.Some? ==> ToUsage(u).promptTokensDetails.value.cachedTokens == Num(u.details.value.cachedTokens)
  {
  }

  /** Emitted `tool_calls`: present only when some tool-call delta was seen;
      then one entry per distinct stream index, sorted ascending, each the
      expected tool call of the deltas with that index. */
  lemma ToolCallsLaw(chunks: seq<LogEntry>, decodeJson: string -> Option<Json>, now: int)
    ensures var r := MergeChunksToResponse(chunks, decodeJson, now);
      var ds := AllToolDeltas(ParsedChunks(chunks, decodeJson));
      r.Some? ==> EmitsToolCalls(r.value, ds)
  {
    var cs := ParsedChunks(chunks, decodeJson);
    var b := AbsorbAll(cs);
    assert MergeChunksToResponse(chunks, decodeJson, now) == Finalize(b, now);
    AbsorbAllToolCalls(cs);
    FinalizeEmits(b, AllToolDeltas(cs), now);
  }

  /** The response's `tool_calls`: present exactly when some tool-call delta
      was seen; then one entry per distinct stream index, sorted ascending,
      each the expected tool call of the deltas with that index. */
  predicate EmitsToolCalls(r: OpenAIResponse, ds: seq<ToolCallDelta>) {
    var keys := SortedKeys(Indices(ds));
    && |r.choices| == 1
    && (r.choices[0].message.toolCalls.Some? <==> |ds| > 0)
    && (r.choices[0].message.toolCalls.Some? ==>
          var calls := r.choices[0].message.toolCalls.value;
          && |calls| == |keys|
          && forall i :: 0 <= i < |calls| ==> calls[i] == ExpectedToolCall(Select(ds, keys[i])))
  }

  lemma FinalizeEmits(b: Builder, ds: seq<ToolCallDelta>, now: int)
    requires b.toolCalls == MergeToolCallDeltas(map[], ds)
    ensures Finalize(b, now).Some? ==> EmitsToolCalls(Finalize(b, now).value, ds)
  {
    ToolCallMapLaw(ds);
    FinalizeToolCalls(b, now);
    assert |ds| == 0 <==> Indices(ds) == {} by {
      if |ds| > 0 {
        assert StreamIndex(ds[|ds| - 1]) in Indices(ds);
      }
    }
  }

  /** The emitted `tool_calls` are the fold's map in ascending key order, and
      the key is omitted when the map is empty. */
  lemma FinalizeToolCalls(b: Builder, now: int)
    ensures Finalize(b, now).Some? ==>
      var calls := Finalize(b, now).value.choices[0].message.toolCalls;
      var keys := SortedKeys(b.toolCalls.Keys);
      && (calls.Some? <==> |b.toolCalls| > 0)
      && (calls.Some? ==> (|calls.value| == |keys| &&
            forall i :: 0 <= i < |keys| ==> calls.value[i] == b.toolCalls[keys[i]]))
  {
  }

  /** `choices` only needs a positive `length`: an array-like object is read
      at its key "0"; without that key the `choice.delta` read throws, so the
      chunk contributes no usage; a zero `length` means no choice at all. */
  lemma ArrayLikeChoices(c: Json, u: Json)
    ensures var p := JObj([Field("choices", JObj([Field("length", JNum(1)), Field("0", c)]))]);
      ChoiceOf(p) == if c.JNull? then NullChoice else FirstChoice(DeltaOf(Get(c, "delta")), GetStr(c, "finish_reason"))
    ensures var p := JObj([Field("choices", JObj([Field("length", JNum(1))])), Field("usage", u)]);
      ChunkOf(p).Some? && ChoiceOf(p) == NullChoice && UsageDeltaOf(ChunkOf(p).value).None?
    ensures ChoiceOf(JObj([Field("choices", JObj([Field("length", JNum(0)), Field("0", c)]))])) == NoChoice
  {
    var one := [Field("length", JNum(1)), Field("0", c)];
    assert FieldIndex(one, "length") == 0 by {
      assert one[..1] == [Field("length", JNum(1))];
    }
    var zero := [Field("length", JNum(0)), Field("0", c)];
    assert FieldIndex(zero, "length") == 0 by {
      assert zero[..1] == [Field("length", JNum(0))];
    }
    var outer := [Field("choices", JObj([Field("length", JNum(1))])), Field("usage", u)];
    assert FieldIndex(outer, "choices") == 0 by {
      assert outer[..1] == [Field("choices", JObj([Field("length", JNum(1))]))];
    }
  }

  // ---------------------------------------------------------------------
  // parseSseChunks
  // ---------------------------------------------------------------------

  /** A `send data` entry with a truthy `data` that is not a string: the
      `split` call on it throws. */
  predicate SseThrows(e: LogEntry) {
    HasKind(e, SendDataKind) && Present(e.data) && !e.data.value.JStr?
  }

  /** The text one entry contributes when nothing throws. */
  function SseContribution(e: LogEntry, decodeJson: string -> Option<Json>): string {
    if HasKind(e, SendDataKind) && Present(e.data) && e.data.value.JStr? then SseText(SplitLines(e.data.value.s), decodeJson)
    else ""
  }

  function SseContributions(es: seq<LogEntry>, decodeJson: string -> Option<Json>): seq<string> {
    seq(|es|, i requires 0 <= i < |es| => SseContribution(es[i], decodeJson))
  }

  /** Sequencing two runs of the loop: a throw in either one propagates. */
  function Then(x: Completion<string>, y: Completion<string>): Completion<string> {
    if x.TypeError? || y.TypeError? then TypeError else Normal(x.value + y.value)
  }

  lemma ThenAssociates(x: Completion<string>, y: Completion<string>, z: Completion<string>)
    ensures Then(Then(x, y), z) == Then(x, Then(y, z))
  {
    if x.Normal? && y.Normal? && z.Normal? {
      assert (x.value + y.value) + z.value == x.value + (y.value + z.value);
    }
  }

  /** One entry throws exactly when it is a `send data` entry with truthy non-string `data`. */
  lemma SseEntryMeaning(e: LogEntry, decodeJson: string -> Option<Json>)
    ensures SseEntry(e, decodeJson) == if SseThrows(e) then TypeError else Normal(SseContribution(e, decodeJson))
  {
  }

  lemma ParseSseChunksSnoc(p: seq<LogEntry>, e: LogEntry, decodeJson: string -> Option<Json>)
    ensures ParseSseChunks(p + [e], decodeJson) == Then(ParseSseChunks(p, decodeJson), SseEntry(e, decodeJson))
  {
    assert (p + [e])[..|p|] == p;
  }

  ghost predicate AnySseThrows(es: seq<LogEntry>) {
    exists i :: 0 <= i < |es| && SseThrows(es[i])
  }

  /** `parseSseChunks` throws exactly when some `send data` entry has truthy
      non-string `data`; otherwise it returns every entry's text, in order. */
  lemma {:induction false} ParseSseChunksMeaning(es: seq<LogEntry>, decodeJson: string -> Option<Json>)
    ensures ParseSseChunks(es, decodeJson).TypeError? <==> AnySseThrows(es)
    ensures ParseSseChunks(es, decodeJson).Normal? ==>
      ParseSseChunks(es, decodeJson).value == Flatten(SseContributions(es, decodeJson))
    decreases |es|
  {
    if |es| > 0 {
      var p := es[..|es| - 1];
      var e := es[|es| - 1];
      assert es == p + [e];
      ParseSseChunksMeaning(p, decodeJson);
      ParseSseChunksSnoc(p, e, decodeJson);
      SseEntryMeaning(e, decodeJson);
      assert SseContributions(es, decodeJson) == SseContributions(p, decodeJson) + [SseContribution(e, decodeJson)];
      FlattenSnoc(SseContributions(p, decodeJson), SseContribution(e, decodeJson));
      if AnySseThrows(p) {
        var i :| 0 <= i < |p| && SseThrows(p[i]);
        assert es[i] == p[i];
      }
      if AnySseThrows(es) && !SseThrows(e) {
        var i :| 0 <= i < |es| && SseThrows(es[i]);
        assert p[i] == es[i];
      }
    }
  }

  /** Splitting the entry list anywhere: the two parts' results sequence. */
  lemma {:induction false} ParseSseChunksAppend(a: seq<LogEntry>, b: seq<LogEntry>, decodeJson: string -> Option<Json>)
    ensures ParseSseChunks(a + b, decodeJson) == Then(ParseSseChunks(a, decodeJson), ParseSseChunks(b, decodeJson))
    decreases |b|
  {
    if |b| == 0 {
      assert a + b == a;
      assert ParseSseChunks(a, decodeJson).Normal? ==> ParseSseChunks(a, decodeJson).value + "" == ParseSseChunks(a, decodeJson).value;
    } else {
      var q := b[..|b| - 1];
      var x := b[|b| - 1];
      assert a + b == (a + q) + [x] && b == q + [x];
      ParseSseChunksAppend(a, q, decodeJson);
      ParseSseChunksSnoc(a + q, x, decodeJson);
      ParseSseChunksSnoc(q, x, decodeJson);
      ThenAssociates(ParseSseChunks(a, decodeJson), ParseSseChunks(q, decodeJson), SseEntry(x, decodeJson));
    }
  }

  /** Only lines that start with `data: ` contribute text. */
  lemma NonDataLineIsIgnored(line: string, decodeJson: string -> Option<Json>)
    requires !(|line| >= |SsePrefix| && line[..|SsePrefix|] == SsePrefix)
    ensures SseLineText(line, decodeJson) == ""
  {
  }

  /** A `content_block_delta` event line contributes its `delta.text`. */
  lemma ContentBlockDeltaLine(payload: string, p: Json, d: Json, decodeJson: string -> Option<Json>)
    requires decodeJson(payload) == Some(p)
    requires Get(p, "type") == Some(JStr("content_block_delta"))
    requires Get(p, "delta") == Some(d) && !d.JNull?
    ensures SseLineText(SsePrefix + payload, decodeJson) == Appended(Get(d, "text"))
  {
    var line := SsePrefix + payload;
    assert line[..|SsePrefix|] == SsePrefix && line[|SsePrefix|..] == payload;
  }

  /** A streamed Anthropic text delta, with its `index` and the delta's own
      `type`, contributes the delta's text. */
  lemma TextDeltaEventLine(payload: string, text: string, decodeJson: string -> Option<Json>)
    requires decodeJson(payload) == Some(JObj([
      Field("type", JStr("content_block_delta")),
      Field("index", JNum(0)),
      Field("delta", JObj([Field("type", JStr("text_delta")), Field("text", JStr(text))]))]))
    ensures SseLineText(SsePrefix + payload, decodeJson) == text
  {
    var fields := [Field("type", JStr("content_block_delta")), Field("index", JNum(0)),
                   Field("delta", JObj([Field("type", JStr("text_delta")), Field("text", JStr(text))]))];
    var inner := [Field("type", JStr("text_delta")), Field("text", JStr(text))];
    assert FieldIndex(fields, "type") == 0 by {
      var two := [Field("type", JStr("content_block_delta")), Field("index", JNum(0))];
      assert fields[..2] == two && two[..1] == [Field("type", JStr("content_block_delta"))];
      assert FieldIndex(fields, "type") == FieldIndex(two, "type");
      assert FieldIndex(two, "type") == FieldIndex(two[..1], "type");
    }
    assert FieldIndex(inner, "text") == 1 by {
      assert inner[..1] == [Field("type", JStr("text_delta"))];
    }
    ContentBlockDeltaLine(payload, JObj(fields), JObj(inner), decodeJson);
  }
}

=== FILE: seqs.dfy ===
/** Reference definitions over sequences that the log processor's folds are
    proved against: concatenation, first and last truthy value, last match,
    and order-preserving filtering. Each definition is followed by the lemma
    that states what it means. */
module Seqs {
  import opened Js

  /** In-order concatenation of all pieces. */
  function Flatten(xs: seq<string>): string {
    if |xs| == 0 then "" else Flatten(xs[..|xs| - 1]) + xs[|xs| - 1]
  }

  lemma FlattenSnoc(xs: seq<string>, x: string)
    ensures Flatten(xs + [x]) == Flatten(xs) + x
  {
    assert (xs + [x])[..|xs|] == xs;
  }

  lemma {:induction false} FlattenIsEmpty(xs: seq<string>)
    ensures Flatten(xs) == "" <==> forall i :: 0 <= i < |xs| ==> xs[i] == ""
    decreases |xs|
  {
    if |xs| > 0 {
      var p := xs[..|xs| - 1];
      FlattenIsEmpty(p);
      assert forall i :: 0 <= i < |p| ==> p[i] == xs[i];
    }
  }

  lemma {:induction false} FlattenAppend(a: seq<string>, b: seq<string>)
    ensures Flatten(a + b) == Flatten(a) + Flatten(b)
    decreases |b|
  {
    if |b| == 0 {
      assert a + b == a;
    } else {
      var q := b[..|b| - 1];
      var x := b[|b| - 1];
      assert a + b == (a + q) + [x] && b == q + [x];
      FlattenAppend(a, q);
      FlattenSnoc(a + q, x);
      FlattenSnoc(q, x);
    }
  }

  /** The first element that differs from `falsy`, or `falsy` if there is none:
      the value an `if (!x && y) x = y` loop keeps. */
  function FirstTruthy<T(==)>(xs: seq<T>, falsy: T): T {
    if |xs| == 0 then falsy
    else
      var f := FirstTruthy(xs[..|xs| - 1], falsy);
      if f != falsy then f else xs[|xs| - 1]
  }

  lemma FirstTruthySnoc<T>(xs: seq<T>, x: T, falsy: T)
    ensures FirstTruthy(xs + [x], falsy) == if FirstTruthy(xs, falsy) != falsy then FirstTruthy(xs, falsy) else x
  {
    assert (xs + [x])[..|xs|] == xs;
  }

  lemma {:induction false} FirstTruthyMeaning<T>(xs: seq<T>, falsy: T)
    ensures FirstTruthy(xs, falsy) == falsy <==> forall i :: 0 <= i < |xs| ==> xs[i] == falsy
    ensures FirstTruthy(xs, falsy) != falsy ==>
      exists i :: 0 <= i < |xs| && xs[i] == FirstTruthy(xs, falsy) && forall j :: 0 <= j < i ==> xs[j] == falsy
    decreases |xs|
  {
    if |xs| > 0 {
      var p := xs[..|xs| - 1];
      FirstTruthyMeaning(p, falsy);
      assert forall i :: 0 <= i < |p| ==> p[i] == xs[i];
    }
  }

  /** The last element that differs from `falsy`, or `default` if there is none:
      the value an `if (y) x = y` loop keeps. */
  function LastTruthy<T(==)>(xs: seq<T>, falsy: T, default: T): T {
    if |xs| == 0 then default
    else if xs[|xs| - 1] != falsy then xs[|xs| - 1]
    else LastTruthy(xs[..|xs| - 1], falsy, default)
  }

  lemma LastTruthySnoc<T>(xs: seq<T>, x: T, falsy: T, default: T)
    ensures LastTruthy(xs + [x], falsy, default) == if x != falsy then x else LastTruthy(xs, falsy, default)
  {
    assert (xs + [x])[..|xs|] == xs;
  }

  lemma {:induction false} LastTruthyMeaning<T>(xs: seq<T>, falsy: T, default: T)
    ensures (forall i :: 0 <= i < |xs| ==> xs[i] == falsy) ==> LastTruthy(xs, falsy, default) == default
    ensures (exists i :: 0 <= i < |xs| && xs[i] != falsy) ==>
      exists i :: 0 <= i < |xs| && xs[i] == LastTruthy(xs, falsy, default) && xs[i] != falsy
                  && forall j :: i < j < |xs| ==> xs[j] == falsy
    decreases |xs|
  {
    if |xs| > 0 {
      var p := xs[..|xs| - 1];
      var n := |xs| - 1;
      if xs[n] != falsy {
        assert xs[n] == LastTruthy(xs, falsy, default);
      } else {
        LastTruthyMeaning(p, falsy, default);
        assert LastTruthy(xs, falsy, default) == LastTruthy(p, falsy, default);
        if forall i :: 0 <= i < |xs| ==> xs[i] == falsy {
          assert forall i :: 0 <= i < |p| ==> p[i] == falsy;
        } else {
          var k :| 0 <= k < |xs| && xs[k] != falsy;
          assert p[k] != falsy;
          var i :| 0 <= i < |p| && p[i] == LastTruthy(p, falsy, default) && p[i] != falsy
                   && forall j :: i < j < |p| ==> p[j] == falsy;
          assert xs[i] == p[i];
          assert forall j :: i < j < |xs| ==> xs[j] == falsy by {
            forall j | i < j < |xs| ensures xs[j] == falsy {
              if j < n {
                assert xs[j] == p[j];
              }
            }
          }
        }
      }
    }
  }

  /** The last present value, or `None`. */
  function LastSome<T>(xs: seq<Option<T>>): Option<T> {
    if |xs| == 0 then None
    else if xs[|xs| - 1].Some? then xs[|xs| - 1]
    else LastSome(xs[..|xs| - 1])
  }

  lemma LastSomeSnoc<T>(xs: seq<Option<T>>, x: Option<T>)
    ensures LastSome(xs + [x]) == if x.Some? then x else LastSome(xs)
  {
    assert (xs + [x])[..|xs|] == xs;
  }

  lemma {:induction false} LastSomeMeaning<T>(xs: seq<Option<T>>)
    ensures LastSome(xs).None? <==> forall i :: 0 <= i < |xs| ==> xs[i].None?
    ensures LastSome(xs).Some? ==>
      exists i :: 0 <= i < |xs| && xs[i] == LastSome(xs) && forall j :: i < j < |xs| ==> xs[j].None?
    decreases |xs|
  {
    if |xs| > 0 {
      var p := xs[..|xs| - 1];
      var n := |xs| - 1;
      if xs[n].Some? {
        assert xs[n] == LastSome(xs);
      } else {
        LastSomeMeaning(p);
        assert LastSome(xs) == LastSome(p);
        if LastSome(p).Some? {
          var i :| 0 <= i < |p| && p[i] == LastSome(p) && forall j :: i < j < |p| ==> p[j].None?;
          assert xs[i] == p[i];
          forall j | i < j < |xs| ensures xs[j].None? {
            if j < n {
              assert xs[j] == p[j];
            }
          }
        } else {
          forall i | 0 <= i < |xs| ensures xs[i].None? {
            if i < n {
              assert xs[i] == p[i];
            }
          }
        }
      }
    }
  }

  /** The last element satisfying `p`, or `None`. */
  function LastWhere<T>(xs: seq<T>, p: T -> bool): Option<T> {
    if |xs| == 0 then None
    else if p(xs[|xs| - 1]) then Some(xs[|xs| - 1])
    else LastWhere(xs[..|xs| - 1], p)
  }

  lemma LastWhereSnoc<T>(xs: seq<T>, x: T, p: T -> bool)
    ensures LastWhere(xs + [x], p) == if p(x) then Some(x) else LastWhere(xs, p)
  {
    assert (xs + [x])[..|xs|] == xs;
  }

  lemma {:induction false} LastWhereMeaning<T>(xs: seq<T>, p: T -> bool)
    ensures LastWhere(xs, p).None? <==> forall i :: 0 <= i < |xs| ==> !p(xs[i])
    ensures LastWhere(xs, p).Some? ==>
      exists i :: 0 <= i < |xs| && xs[i] == LastWhere(xs, p).value && p(xs[i])
                  && forall j :: i < j < |xs| ==> !p(xs[j])
    decreases |xs|
  {
    if |xs| > 0 {
      var q := xs[..|xs| - 1];
      LastWhereMeaning(q, p);
      assert forall i :: 0 <= i < |q| ==> q[i] == xs[i];
    }
  }

  /** The elements satisfying `p`, in their original order. */
  function Filter<T>(xs: seq<T>, p: T -> bool): seq<T> {
    if |xs| == 0 then []
    else
      var rest := Filter(xs[..|xs| - 1], p);
      if p(xs[|xs| - 1]) then rest + [xs[|xs| - 1]] else rest
  }

  lemma FilterSnoc<T>(xs: seq<T>, x: T, p: T -> bool)
    ensures Filter(xs + [x], p) == if p(x) then Filter(xs, p) + [x] else Filter(xs, p)
  {
    assert (xs + [x])[..|xs|] == xs;
  }

  lemma {:induction false} FilterMeaning<T>(xs: seq<T>, p: T -> bool)
    ensures |Filter(xs, p)| <= |xs|
    ensures forall i :: 0 <= i < |Filter(xs, p)| ==> p(Filter(xs, p)[i]) && Filter(xs, p)[i] in xs
    ensures forall i :: 0 <= i < |xs| && p(xs[i]) ==> xs[i] in Filter(xs, p)
    decreases |xs|
  {
    if |xs| > 0 {
      var q := xs[..|xs| - 1];
      FilterMeaning(q, p);
      assert forall i :: 0 <= i < |q| ==> q[i] == xs[i];
    }
  }

  lemma {:induction false} FilterAppend<T>(a: seq<T>, b: seq<T>, p: T -> bool)
    ensures Filter(a + b, p) == Filter(a, p) + Filter(b, p)
    decreases |b|
  {
    if |b| == 0 {
      assert a + b == a;
    } else {
      var q := b[..|b| - 1];
      var x := b[|b| - 1];
      assert a + b == (a + q) + [x] && b == q + [x];
      FilterAppend(a, q, p);
      FilterSnoc(a + q, x, p);
      FilterSnoc(q, x, p);
    }
  }

  /** In-order concatenation of a sequence of sequences. */
  function Concat<T>(xss: seq<seq<T>>): seq<T> {
    if |xss| == 0 then [] else Concat(xss[..|xss| - 1]) + xss[|xss| - 1]
  }

  lemma ConcatSnoc<T>(xss: seq<seq<T>>, xs: seq<T>)
    ensures Concat(xss + [xs]) == Concat(xss) + xs
  {
    assert (xss + [xs])[..|xss|] == xss;
  }

  lemma {:induction false} ConcatIsEmpty<T>(xss: seq<seq<T>>)
    ensures |Concat(xss)| == 0 <==> forall i :: 0 <= i < |xss| ==> |xss[i]| == 0
    decreases |xss|
  {
    if |xss| > 0 {
      var p := xss[..|xss| - 1];
      ConcatIsEmpty(p);
      assert forall i :: 0 <= i < |p| ==> p[i] == xss[i];
    }
  }

  lemma {:induction false} ConcatAppend<T>(a: seq<seq<T>>, b: seq<seq<T>>)
    ensures Concat(a + b) == Concat(a) + Concat(b)
    decreases |b|
  {
    if |b| == 0 {
      assert a + b == a;
    } else {
      var q := b[..|b| - 1];
      var x := b[|b| - 1];
      assert a + b == (a + q) + [x] && b == q + [x];
      ConcatAppend(a, q);
      ConcatSnoc(a + q, x);
      ConcatSnoc(q, x);
    }
  }
}
